=== FILE: README.md ===
# Class management: student creation, modelled in Dafny

This project models how the class-management backend admits a new student.
It covers the following parts:

- **The service checks** (`StudentService`): the `YYYY-MM-DD` birth-date parser, the age rule (16 to 100 whole years on the day of creation), the phone rule (an allowed alphabet, then 10 to 15 digits), and `create_new_student`, which runs these checks in a fixed order and stops at the first failure.
- **The relational repository** (`Repository`): the required-field gate `validate_student_data`, and `create_student`. That operation normalises the caller's text, stamps the enrollment date and maps a clash on a unique column to a conflict message. A clash leaves the table as it was.
- **The stored record** (`Models`): its columns, `full_name`, `to_dict` and `__repr__`, the two unique columns and the row id.
- **The document store** (`MongoStore`): `StudentDocument.full_name` and `to_dict`, `MongoStudentRepository.create_student` with its two pre-checks and its wrapped errors, `get_by_email` and `get_by_student_id`.
- **The settings** (`Config`): the four field validators, `is_development` / `is_production` / `is_testing`, `database_url`, `mongodb_connection_string` and `get_database_config`.

Supporting modules:

- `Wrappers`: `Option`, `Result`, `Outcome`, and `Attempt`, which pairs a store state with an operation's result.
- `Text`: Python's `str.strip` with the exact `isspace` character set, case mapping, `replace`, `split`/`join` and decimal digits.
- `Dates`: proleptic Gregorian dates with leap years, and ISO rendering and parsing.
- `Scenarios`: concrete cases taken from the repository's unit tests.

Conventions:

- **Pure functions.** Every store is an immutable sequence of records, and every operation is a pure function.
- **Failures are values.** A failure carries the exact message the code raises.
- **The store after an attempt.** A create returns an `Attempt`, so "a failed create changes nothing" is a statement about the returned state.
- **Inputs from outside.** The clock is the `today` parameter, and clock readings are the opaque `now` parameter. The ObjectId the document store assigns is the `newId` parameter.

## Model

| member | source | states |
|---|---|---|
| Dates.IsoFormat | class-management-main/backend/data/models.py:108-110 | `isoformat()` of a date is ten characters: four digits, a hyphen, two digits, a hyphen, two digits |
| Dates.ParseIso | class-management-main/backend/services/student_service.py:106-109 | whatever the `%Y-%m-%d` parse accepts is the ISO rendering of the date it returns, so no trailing text is ever accepted |
| Dates.ParseIsoFormat | class-management-main/backend/data/models.py:108 | round trip: parsing the ISO rendering of any valid date gives that date back |
| Dates.ParseIsoExactly | class-management-main/backend/services/student_service.py:107 | a text parses to `d` if and only if it is the ISO rendering of `d` |
| Dates.LeapDay | class-management-main/backend/services/student_service.py:107 | the 29th of February is a valid date exactly in leap years |
| Models.TextValue | class-management-main/backend/data/models.py:107-109 | an optional text column is rendered as `null` exactly when it is absent, and as its text otherwise |
| Models.DateValue | class-management-main/backend/data/models.py:108-110 | an optional date column is `null` exactly when absent; a present date is rendered as its `isoformat()` text, which parses back to the stored date |
| Models.FullNameOf | class-management-main/backend/data/models.py:83-91 | `full_name` is the first name, one space, then the last name, and both parts can be read back from it; the document store's property at mongo_connection.py:36-39 is the same function |
| Models.Student.ToDict | class-management-main/backend/data/models.py:93-113 | `to_dict` has exactly the twelve keys, with `full_name` equal to the property. A present phone or address is its stored text. A present birth date and the enrollment date are their `isoformat()` text, which parses back to the stored date. The optional columns are `null` exactly when absent |
| Models.Student.Repr | class-management-main/backend/data/models.py:71-81 | `__repr__` starts with `<Student(id=` followed by the id, the student ID, the full name and the e-mail in the source's layout |
| Models.ReprShowsId | class-management-main/backend/data/models.py:79 | the id can be read back from the `__repr__` text |
| Models.MaxId | class-management-main/backend/data/models.py:40 | every row id is at most the largest id in use, and that largest id belongs to some row |
| Models.NextId | class-management-main/backend/data/models.py:40 | the next auto-increment id is at least 1 and differs from every id in use |
| Repository.ValidateStudentData | class-management-main/backend/data/repository.py:93-135 | the gate returns the first failing check, in the order ID, first name, last name, e-mail present; then ID length 3 to 20 after trimming; then `@` and `.` in the trimmed e-mail. Each failure is stated with its message, "Invalid email format" included: it is returned, once everything before it holds, exactly when the trimmed e-mail lacks `@` or `.`. It accepts exactly when all checks hold, and its message is empty exactly on acceptance |
| Repository.GateIgnoresPadding | class-management-main/backend/data/repository.py:113-133 | trimming the four values first never changes the gate's verdict |
| Repository.CleanOptional | class-management-main/backend/data/repository.py:67-69 | an optional value becomes absent exactly when it is absent or empty; otherwise it is trimmed |
| Repository.Normalize | class-management-main/backend/data/repository.py:62-71 | the stored values: ID and names trimmed, the e-mail lower-cased then trimmed, phone and address cleaned, the birth date unchanged |
| Repository.NormalizeIdempotent | class-management-main/backend/data/repository.py:62-71 | normalising twice equals normalising once, if and only if neither the phone nor the address is blank but non-empty |
| Repository.ConflictMessagesDiffer | class-management-main/backend/data/repository.py:83-86 | the ID-conflict and e-mail-conflict messages can never be equal |
| Repository.CreateStudent | class-management-main/backend/data/repository.py:60-91 | a failure leaves the table unchanged, and a success appends exactly the new row. The ID conflict happens exactly when the trimmed ID is taken. The e-mail conflict happens exactly when the ID is free and the normalised e-mail is taken. Both messages quote the raw argument. The new row holds the normalised values, the enrollment date `today` and a fresh id |
| Repository.CreateOutcomes | class-management-main/backend/data/repository.py:80-88 | a create either succeeds or fails with one of the two conflict messages |
| Repository.CreateKeepsKeysUnique | class-management-main/backend/data/models.py:40-46 | if ids, student IDs and e-mails are unique before a create, they are unique after it |
| Repository.ResubmittedIdConflicts | class-management-main/backend/data/repository.py:80-84 | after a successful create, any create with the same trimmed ID fails with the ID conflict and changes nothing |
| Repository.ResubmittedEmailConflicts | class-management-main/backend/data/repository.py:85-86 | after a successful create, a create with a new ID and the same e-mail up to case and padding fails with the e-mail conflict |
| Repository.BlankOptionalStoredEmpty | class-management-main/backend/data/repository.py:67-69 | a present, non-empty, blank phone or address is stored as `""`, not as absent |
| StudentService.ParseDateOfBirth | class-management-main/backend/services/student_service.py:93-109 | the parse either returns a date whose ISO rendering is the input, or fails with "Invalid date format. Use YYYY-MM-DD format" |
| StudentService.ParseDateOfBirthExactly | class-management-main/backend/services/student_service.py:106-109 | the parse returns `d` exactly for the ISO rendering of `d` |
| StudentService.AgeAtLeast | class-management-main/backend/services/student_service.py:130-133 | the whole-year age is at least `n` exactly when the birth date is on or before today's month and day `n` years back |
| StudentService.ValidateAge | class-management-main/backend/services/student_service.py:111-140 | an absent date passes; a future date fails first; then "too young" exactly when born after the 16th anniversary date, and "Invalid date of birth" exactly when born on or before the 101st; otherwise it passes |
| StudentService.AgeOn | class-management-main/backend/services/student_service.py:130-132 | the whole-year age is the difference of the years, or one less; it is the full difference exactly when this year's birthday is on or before today |
| StudentService.AgeBoundaries | class-management-main/backend/services/student_service.py:135-140 | corollary of the anniversary statement, in whole years: ages 16 and 100 pass, 15 is too young and 101 is refused |
| StudentService.CountDigits | class-management-main/backend/services/student_service.py:163 | a text holds no more digits than characters |
| StudentService.Digits | class-management-main/backend/services/student_service.py:163 | the digits of a text, in order: only digits, as many as the text holds, and every digit occurs as often as in the text; by `StudentService.DigitsAppend` the digits of a concatenation are the digits of each part in turn |
| StudentService.DigitsAppend | class-management-main/backend/services/student_service.py:163 | the digits of `a + b` are the digits of `a` followed by those of `b`, which fixes their order |
| StudentService.DigitsOnly | class-management-main/backend/services/student_service.py:163 | the loop that extracts the digits returns exactly the in-order digits of its input |
| StudentService.ValidatePhoneFormat | class-management-main/backend/services/student_service.py:142-165 | an absent or blank phone passes. Otherwise a character outside digits, space, `-`, `(`, `)` and `+` fails first, and a phone within that alphabet passes exactly when it holds 10 to 15 digits, and otherwise fails with "Phone number must have between 10-15 digits" |
| StudentService.PunctuationIgnored | class-management-main/backend/services/student_service.py:157-165 | inserting `-`, `(`, `)` or `+` into a trimmed phone never changes the verdict |
| StudentService.DigitsOnlyPhone | class-management-main/backend/services/student_service.py:162-165 | a phone made only of digits passes exactly when its length is 10 to 15 |
| StudentService.ParseOptionalDateOfBirth | class-management-main/backend/services/student_service.py:67-70 | an absent or empty birth-date text means no date; any other text is parsed: on success the date kept is the one whose ISO rendering is the text, and a parse error is returned as it is |
| StudentService.CreateNewStudent | class-management-main/backend/services/student_service.py:32-91 | the stages run in order (gate, date parse, age, phone, create), and each stage's failure message is returned with the table unchanged. Once the four checks pass, the call fails exactly when the relational create fails, with the same message, and otherwise the table is the one the create produced. On success the table gains exactly one row; the message is "Student <full name> created successfully" and the response carries that row's `to_dict` |
| StudentService.SuccessPath | class-management-main/backend/services/student_service.py:60-85 | a successful `create_new_student` passed every stage and left the table exactly as the relational create did |
| StudentService.GateHoldsAfterNormalize | class-management-main/backend/data/repository.py:113-133 | values that pass the gate still pass it once normalised for storage |
| StudentService.PhoneHoldsAfterClean | class-management-main/backend/services/student_service.py:152-165 | a phone that passes still passes once cleaned for storage |
| StudentService.CreatedRowAdmissible | class-management-main/backend/services/student_service.py:60-91 | the stored row itself passes the gate, the age rule (judged on its enrollment date) and the phone rule |
| StudentService.DuplicatePropagates | class-management-main/backend/services/student_service.py:77-85 | submitting the same student again fails with the repository's ID conflict, quoting the caller's ID, and leaves the table unchanged |
| StudentService.CreateNewStudentKeepsTableWellFormed | class-management-main/backend/services/student_service.py:60-91 | invariant: if every row passes all checks and the keys are unique before `create_new_student`, the same holds after it |
| MongoStore.StudentDocument.ToDict | class-management-main/backend/data/mongo_connection.py:41-57 | the document dictionary has the same twelve keys, a string `id` and `full_name` equal to the property. Every stored text field is rendered as it is, and the optional ones are `null` exactly when absent. A present birth date and the enrollment date are their `isoformat()` text |
| MongoStore.Wrapped | class-management-main/backend/data/mongo_connection.py:248-249 | a re-raised error starts with "Failed to create student: " followed by the original message |
| MongoStore.FindByEmail | class-management-main/backend/data/mongo_connection.py:223-225 | `find_one` on the e-mail returns a stored document with that e-mail exactly when one exists |
| MongoStore.FindByStudentId | class-management-main/backend/data/mongo_connection.py:216-218 | `find_one` on the student ID returns a stored document with that ID exactly when one exists |
| MongoStore.GetByEmail | class-management-main/backend/data/mongo_connection.py:255-257 | the lookup finds a document exactly when one holds the lower-cased, trimmed query |
| MongoStore.GetByStudentId | class-management-main/backend/data/mongo_connection.py:251-253 | the lookup finds a document exactly when one holds the query as given |
| MongoStore.NewDocument | class-management-main/backend/data/mongo_connection.py:230-241 | the saved document holds the same normalised values as the relational row, the given ObjectId, `enrollment_date` = today and both timestamps = now |
| MongoStore.CreateStudent | class-management-main/backend/data/mongo_connection.py:186-249 | every failure leaves the collection unchanged and carries the wrapping prefix. The ID failure happens exactly when the untrimmed ID is stored. The e-mail failure happens exactly when the ID check passed and the normalised e-mail is stored. When neither is stored, the create succeeds. A success appends exactly the new document |
| MongoStore.CreateKeepsEmailsUnique | class-management-main/backend/data/mongo_connection.py:222-227 | if stored e-mails are unique before a create, they are unique after it |
| MongoStore.CreateThenGetByEmail | class-management-main/backend/data/mongo_connection.py:255-257 | after a create, `get_by_email` with any case or padding of the e-mail returns the new document |
| MongoStore.PaddedIdSlipsThrough | class-management-main/backend/data/mongo_connection.py:216-231 | an ID that differs from a stored one only by padding passes the pre-check, and two documents end up with the same student ID |
| MongoStore.CreateStudentTrimmedCheck | class-management-main/backend/data/mongo_connection.py:214-249 | with the ID trimmed before the pre-check, the ID conflict happens exactly when the trimmed ID is stored, and the e-mail conflict exactly when it is not but the normalised e-mail is. When neither is stored the create succeeds, and unique keys stay unique |
| MongoStore.PaddedIdRefusedWhenTrimmed | class-management-main/backend/data/mongo_connection.py:216-231 | with the trimmed pre-check, re-creating "STU001" as " STU001" is refused with the ID conflict and the collection is unchanged |
| MongoStore.BackendsNormalizeAlike | class-management-main/backend/data/mongo_connection.py:230-241 | for the same arguments, both stores store the same values, enrollment date and timestamps |
| MongoStore.BackendsRenderAlike | class-management-main/backend/data/mongo_connection.py:41-57 | a row and a document with the same values have dictionaries with the same keys, equal everywhere except `id` |
| Config.ParseCorsOrigins | class-management-main/backend/core/config.py:114-119 | a list passes unchanged. A text gives one origin more than it has commas; each origin is trimmed and free of commas |
| Config.CorsJoinRoundTrip | class-management-main/backend/core/config.py:117-118 | parsing comma-free pieces joined with commas gives the trimmed pieces back |
| Config.CorsListRoundTrip | class-management-main/backend/core/config.py:114-119 | trimmed, comma-free origins survive a trip through the comma-separated text |
| Config.ValidateDatabaseType | class-management-main/backend/core/config.py:121-127 | accepted exactly when the lower-cased value is `sqlite` or `mongodb`, which is then returned; otherwise the fixed message |
| Config.DatabaseTypeStable | class-management-main/backend/core/config.py:121-127 | validating an accepted database type again returns the same result |
| Config.ValidateLogLevel | class-management-main/backend/core/config.py:129-135 | accepted exactly when the upper-cased value is one of the five level names, which is then returned; otherwise the fixed message |
| Config.LogLevelStable | class-management-main/backend/core/config.py:129-135 | validating an accepted log level again returns the same result |
| Config.ValidateMongodbUrl | class-management-main/backend/core/config.py:137-142 | accepted, and unchanged, exactly when the URL starts with `mongodb://` or `mongodb+srv://` |
| Config.ValidateSettings | class-management-main/backend/core/config.py:114-142 | settings exist exactly when every validator passes, and then hold the validators' results. Otherwise each failing validator's message is reported |
| Config.LoadValidatedIsIdentity | class-management-main/backend/core/config.py:114-142 | loading settings that already hold validated values changes nothing |
| Config.LoadIdempotent | class-management-main/backend/core/config.py:114-142 | loading is idempotent |
| Config.DefaultsAreValid | class-management-main/backend/core/config.py:26-72 | the default values pass every validator unchanged |
| Config.IsDevelopment | class-management-main/backend/core/config.py:149-151 | development mode holds exactly for an eleven-character name each of whose characters is the corresponding letter of "development" in lower or upper case |
| Config.IsProduction | class-management-main/backend/core/config.py:154-156 | production mode holds exactly for a ten-character name each of whose characters is the corresponding letter of "production" in lower or upper case |
| Config.IsTesting | class-management-main/backend/core/config.py:159-161 | testing mode holds exactly for a seven-character name each of whose characters is the corresponding letter of "testing" in lower or upper case |
| Config.ModesExclusive | class-management-main/backend/core/config.py:148-161 | at most one of development, production and testing holds |
| Config.DatabaseUrl | class-management-main/backend/core/config.py:163-171 | the URL of the selected store; it fails with "Unsupported database type: <type>" exactly for any other type |
| Config.MongodbConnectionString | class-management-main/backend/core/config.py:173-188 | without both credentials, or without a known scheme, the URL unchanged; otherwise the result starts with the scheme followed by `user:password@`; every later occurrence of the scheme is rewritten too (see `Config.SchemeRewrittenEverywhere`) |
| Config.NoCredentialsKeepsUrl | class-management-main/backend/core/config.py:176-188 | without both credentials the connection string equals `database_url` for the document store |
| Config.CredentialsFollowScheme | class-management-main/backend/core/config.py:176-187 | with both credentials and a scheme that does not recur, the result is scheme, `user:password@`, then the rest of the URL |
| Config.SchemeRewrittenEverywhere | class-management-main/backend/core/config.py:176-187 | `replace` rewrites every occurrence: in a URL where the scheme appears twice, both occurrences get `user:password@` |
| Config.GetDatabaseConfig | class-management-main/backend/core/config.py:200-218 | it fails exactly when `database_url` fails, with the same message. The file store's config has that URL and the echo flag. The document store's config has the connection string and the pool values |
| Config.LoadedSettingsHaveConfig | class-management-main/backend/core/config.py:121-171 | after validation, neither `database_url` nor `get_database_config` can fail |
| Config.DefaultConfig | class-management-main/backend/core/config.py:53-56 | the defaults are in development mode and select the file store at its default path |
| Scenarios.ChristmasBirthDate | class-management-main/tests/unit/test_services.py:100-113 | "1995-12-25" parses to that date and renders back unchanged |
| Scenarios.MalformedBirthDates | class-management-main/tests/unit/test_services.py:78-98 | month 13, the 30th of February, a two-digit year, slashes and free text are refused with the format message |
| Scenarios.AgeCasesOnTenOctober2026 | class-management-main/tests/unit/test_services.py:115-132 | on 10 October 2026 a 2050 birth date is in the future, 1 January 2010 passes, and 1 January 1900 is refused |
| Scenarios.TooYoungIn2024 | class-management-main/tests/unit/test_services.py:117 | with a clock in 2024, 1 January 2010 is refused as too young |
| Scenarios.ShortTestPhoneRefused | class-management-main/tests/unit/test_services.py:28 | "+1-555-0111" holds eight digits and is refused |
| Scenarios.DottedTestPhoneRefused | class-management-main/tests/unit/test_services.py:192 | "555.123.4567" is refused for its dots |
| Scenarios.PunctuatedPhoneAccepted | class-management-main/tests/unit/test_services.py:191 | "(555) 123-4567" is accepted |
| Scenarios.PlainPhonesAccepted | class-management-main/tests/unit/test_services.py:193-197 | a bare eleven-digit number, a blank phone and no phone are accepted |
| Scenarios.BlankAddressStoredEmpty | class-management-main/tests/unit/test_repository.py:201-215 | a whitespace-only address is stored as `""` |
| Scenarios.BlankIdReported | class-management-main/tests/unit/test_repository.py:124 | a blank student ID is reported first |
| Scenarios.BlankFirstNameReported | class-management-main/tests/unit/test_repository.py:126 | a blank first name is reported after a valid ID |
| Scenarios.BlankLastNameReported | class-management-main/tests/unit/test_repository.py:128 | a blank last name is reported after a valid ID and first name |
| Scenarios.BlankEmailReported | class-management-main/tests/unit/test_repository.py:130 | a blank e-mail is reported after the other three |
| Scenarios.MinimalStudentCreated | class-management-main/tests/unit/test_services.py:47-62 | a student with only the required fields is created on an empty table, and its dictionary holds `null` phone, birth date and address |

### Where the tests and the code disagree

The model follows the code. It therefore proves the following verdicts, which differ from what some tests expect:

- The test phones `+1-555-0111` and `+1-555-0199` hold eight digits, and the phone rule refuses them (`Scenarios.ShortTestPhoneRefused`).
- `555.123.4567` contains dots, which are outside the phone alphabet (`Scenarios.DottedTestPhoneRefused`).
- A whitespace-only address is stored as `""`, not `None` (`Repository.BlankOptionalStoredEmpty`, `Scenarios.BlankAddressStoredEmpty`).
- The "too young" case for 1 January 2010 holds only with a clock before 1 January 2026 (`Scenarios.TooYoungIn2024`, `Scenarios.AgeCasesOnTenOctober2026`).
- In `test_repository.py:217-235`, a plain `Exception` raised while adding a row is not an `SQLAlchemyError`, so it is not rewritten as "Database error creating student". The model has no such failure.

## Left out

- Database sessions, the Motor/Beanie drivers and their connection lifecycle are left out; so is everything asynchronous (`connect`, `create_indexes`, `init_mongodb`, pagination, counts). The stores are sequences of records.
- Clocks are not modelled: `date.today()` is the parameter `today`, and `datetime.utcnow()` is the opaque parameter `now`. Both timestamps of a new record are given the same `now`, although the code reads the clock once for each of them.
- ObjectId generation is left out: the document id is the parameter `newId`.
- Dates.ParseIso: accepts only the zero-padded form. Python's `strptime` also accepts a one-digit month or day, a space-padded day and non-ASCII decimal digits, which the model refuses.
- Text.Lower: maps only the ASCII letters. It is exact for every comparison the model makes against lower-case ASCII names. For e-mail addresses with non-ASCII capitals, the stored text differs from Python's `lower()`.
- Text.Upper: maps the ASCII letters, the dotless i and the long s; Python's other upper-case mappings, including multi-character ones such as ß to SS, are not modelled.
- Repository.CreateStudent: models the two unique columns as abstract key clashes, checked in the order student ID then e-mail. The code instead searches the driver's error text for "student_id" and then "email". SQLAlchemy's text of an integrity error usually includes the INSERT statement, which names both columns, so an e-mail clash may in practice be reported with the ID message. The "Integrity error creating student" and "Database error creating student" branches are left out as well: they depend on the driver's messages.
- StudentService.DigitsOnly: keeps the ASCII digits only, whereas Python's `isdigit` also accepts other Unicode digits. In the phone rule this makes no difference, because the alphabet check that runs first admits only ASCII digits.
- Models.NextId: the row id is one more than the largest id in use, as SQLite assigns it when rows are never deleted. Deletion is not part of this model.
- Column widths are not checked: `String(20)`, `String(50)`, `String(100)` and `String(200)` are not enforced by SQLite. The request-level length limits of the HTTP router are not part of this model.
- The race between the document store's pre-checks and its insert is left out, as is any concurrency.
- MongoStore.StudentDocument.ToDict: the dictionary is modelled with the twelve record keys. ODM bookkeeping fields, other than `id`, that `dict()` may add are left out.
- Config: environment and `.env` loading are left out, including the JSON decoding pydantic applies to list-valued variables before `parse_cors_origins` runs. So are `create_log_directory` (file system), `get_settings`, and the `load_settings` helper at config.py:249-262, which builds `Settings` from a chosen environment file; `Config.ValidateSettings` models constructing `Settings`, the step where the field validators run. Also left out are the settings no modelled member reads (API, security, logging format, e-mail, Redis, front end).
- The HTTP router, the front end, the application entry point and the test fixtures are not part of this model.

## Findings

| source | as written | input that shows it | evidently intended | confidence | as-written member | corrected member |
|---|---|---|---|---|---|---|
| class-management-main/backend/data/mongo_connection.py:216-231 | the student-ID pre-check compares the caller's untrimmed text, while the document stores the trimmed ID | a stored "STU001", then a create with " STU001" and a fresh e-mail: the pre-check finds nothing and a second document with ID "STU001" is saved | trim the ID before the pre-check, as the e-mail pre-check normalises the e-mail | low, not executed: the unique index `create_indexes` builds at start-up (mongo_connection.py:171) would refuse the save, so only a collection without that index shows it | MongoStore.PaddedIdSlipsThrough | MongoStore.CreateStudentTrimmedCheck |

=== FILE: config.dfy ===
/** `Settings`: the settings the application is configured with, the four
    field validators that run when they are loaded, and the properties and
    method derived from them (`is_development`, `database_url`,
    `mongodb_connection_string`, `get_database_config`). Only the fields
    those members read are modelled.
 */
module Config {
  import opened Wrappers
  import opened Text

  /** The value given for `cors_origins`: a comma-separated text, or a list. */
  datatype CorsValue = CorsText(text: string) | CorsList(origins: seq<string>)

  datatype Settings = Settings(
    appEnv: string,
    corsOrigins: CorsValue,
    databaseType: string,
    sqliteDatabaseUrl: string,
    sqliteEcho: bool,
    mongodbUrl: string,
    mongodbDatabaseName: string,
    mongodbMinConnections: int,
    mongodbMaxConnections: int,
    mongodbMaxIdleTimeMs: int,
    mongodbUsername: Option<string>,
    mongodbPassword: Option<string>,
    logLevel: string)

  /** The values used when nothing else is configured. */
  const Defaults: Settings := Settings(
    "development",
    CorsList(["http://localhost:3000", "http://localhost:8501", "http://127.0.0.1:8501"]),
    "sqlite",
    "sqlite:///./class_management.db",
    false,
    "mongodb://localhost:27017",
    "class_management",
    10,
    100,
    30000,
    None,
    None,
    "INFO")

  // ---------------------------------------------------------------------------
  // Validators
  // ---------------------------------------------------------------------------

  /** `parse_cors_origins`: a text is split at every comma and each piece
      trimmed; a list passes through. */
  function ParseCorsOrigins(v: CorsValue): (r: CorsValue)
    ensures r.CorsList?
    ensures v.CorsList? ==> r == v
    ensures v.CorsText? ==> |r.origins| == CountChar(v.text, ',') + 1
    ensures v.CorsText? ==> forall i :: 0 <= i < |r.origins| ==>
                              ',' !in r.origins[i] && Strip(r.origins[i]) == r.origins[i]
  {
    match v
    case CorsList(_) => v
    case CorsText(text) =>
      var parts := Split(text, ',');
      SplitCount(text, ',');
      var origins := seq(|parts|, i requires 0 <= i < |parts| => Strip(parts[i]));
      forall i | 0 <= i < |origins|
        ensures ',' !in origins[i] && Strip(origins[i]) == origins[i]
      {
        var a, b := StripIsCut(parts[i]);
        assert origins[i] == parts[i][a..b];
        assert ',' !in origins[i] by {
          forall m | 0 <= m < |origins[i]| ensures origins[i][m] != ',' {
            assert origins[i][m] == parts[i][a + m];
          }
        }
        StripIdempotent(parts[i]);
      }
      CorsList(origins)
  }

  /** Joining comma-free origins with commas, with any padding around each,
      and parsing the text gives the trimmed origins back. */
  lemma CorsJoinRoundTrip(pieces: seq<string>)
    requires |pieces| >= 1
    requires forall i :: 0 <= i < |pieces| ==> ',' !in pieces[i]
    ensures ParseCorsOrigins(CorsText(Join(pieces, ','))).origins
            == seq(|pieces|, i requires 0 <= i < |pieces| => Strip(pieces[i]))
  {
    SplitJoin(pieces, ',');
  }

  /** A list of trimmed, comma-free origins survives a trip through the
      comma-separated form. */
  lemma CorsListRoundTrip(origins: seq<string>)
    requires |origins| >= 1
    requires forall i :: 0 <= i < |origins| ==> ',' !in origins[i] && Strip(origins[i]) == origins[i]
    ensures ParseCorsOrigins(CorsText(Join(origins, ','))) == CorsList(origins)
  {
    CorsJoinRoundTrip(origins);
  }

  const AllowedTypes: set<string> := {"sqlite", "mongodb"}
  /** The message interpolates the list of allowed types as Python renders it. */
  const DatabaseTypeError: string := "Database type must be one of: " + "['sqlite', 'mongodb']"

  /** `validate_database_type`: accepted in any letter case, stored in lower
      case. */
  function ValidateDatabaseType(v: string): (r: Result<string, string>)
    ensures r.Success? ==> r.value in AllowedTypes && r.value == Lower(v)
    ensures r.Failure? ==> r.error == DatabaseTypeError && forall t :: t in AllowedTypes ==> Lower(v) != t
  {
    if Lower(v) in AllowedTypes then Success(Lower(v)) else Failure(DatabaseTypeError)
  }

  /** Validating a validated database type gives it back. */
  lemma DatabaseTypeStable(v: string)
    requires ValidateDatabaseType(v).Success?
    ensures ValidateDatabaseType(ValidateDatabaseType(v).value) == ValidateDatabaseType(v)
  {
    LowerIdempotent(v);
  }

  const AllowedLevels: set<string> := {"DEBUG", "INFO", "WARNING", "ERROR", "CRITICAL"}
  const LogLevelError: string :=
    "Log level must be one of: " + "['DEBUG', 'INFO', 'WARNING', 'ERROR', 'CRITICAL']"

  /** `validate_log_level`: accepted in any letter case, stored in upper case. */
  function ValidateLogLevel(v: string): (r: Result<string, string>)
    ensures r.Success? ==> r.value in AllowedLevels && r.value == Upper(v)
    ensures r.Failure? ==> r.error == LogLevelError && forall t :: t in AllowedLevels ==> Upper(v) != t
  {
    if Upper(v) in AllowedLevels then Success(Upper(v)) else Failure(LogLevelError)
  }

  /** Validating a validated log level gives it back. */
  lemma LogLevelStable(v: string)
    requires ValidateLogLevel(v).Success?
    ensures ValidateLogLevel(ValidateLogLevel(v).value) == ValidateLogLevel(v)
  {
    UpperIdempotent(v);
  }

  const PlainScheme: string := "mongodb://"
  const SrvScheme: string := "mongodb+srv://"
  const MongodbUrlError: string := "MongoDB URL must start with " + "mongodb:// or mongodb+srv://"

  /** `validate_mongodb_url`: the URL must start with one of the two schemes
      and is kept as given. */
  function ValidateMongodbUrl(v: string): (r: Result<string, string>)
    ensures r.Success? <==> StartsWith(v, PlainScheme) || StartsWith(v, SrvScheme)
    ensures r.Success? ==> r.value == v
    ensures r.Failure? ==> r.error == MongodbUrlError
  {
    if StartsWith(v, PlainScheme) || StartsWith(v, SrvScheme) then Success(v)
    else Failure(MongodbUrlError)
  }

  /** The settings once validation has run: every validated field holds a
      value its validator returns. */
  predicate Validated(s: Settings)
  {
    && s.corsOrigins.CorsList?
    && s.databaseType in AllowedTypes
    && s.logLevel in AllowedLevels
    && (StartsWith(s.mongodbUrl, PlainScheme) || StartsWith(s.mongodbUrl, SrvScheme))
  }

  /** Constructing `Settings`: the validators run in field order
      (`cors_origins`, `database_type`, `mongodb_url`, `log_level`); every
      failure is collected, and the settings exist only when there is none. */
  function ValidateSettings(raw: Settings): (r: Result<Settings, seq<string>>)
    ensures r.Success? <==> && ValidateDatabaseType(raw.databaseType).Success?
                            && ValidateMongodbUrl(raw.mongodbUrl).Success?
                            && ValidateLogLevel(raw.logLevel).Success?
    ensures r.Success? ==> Validated(r.value)
    ensures r.Success? ==>
              r.value == raw.(corsOrigins := ParseCorsOrigins(raw.corsOrigins),
                              databaseType := Lower(raw.databaseType),
                              logLevel := Upper(raw.logLevel))
    ensures r.Failure? ==>
              && 1 <= |r.error| <= 3
              && (DatabaseTypeError in r.error <==> ValidateDatabaseType(raw.databaseType).Failure?)
              && (MongodbUrlError in r.error <==> ValidateMongodbUrl(raw.mongodbUrl).Failure?)
              && (LogLevelError in r.error <==> ValidateLogLevel(raw.logLevel).Failure?)
  {
    var t := ValidateDatabaseType(raw.databaseType);
    var u := ValidateMongodbUrl(raw.mongodbUrl);
    var l := ValidateLogLevel(raw.logLevel);
    var errors := (if t.Failure? then [t.error] else [])
                  + (if u.Failure? then [u.error] else [])
                  + (if l.Failure? then [l.error] else []);
    if errors == [] then
      Success(raw.(corsOrigins := ParseCorsOrigins(raw.corsOrigins),
                   databaseType := t.value, logLevel := l.value))
    else
      ErrorsDistinct();
      Failure(errors)
  }

  lemma ErrorsDistinct()
    ensures DatabaseTypeError != MongodbUrlError
    ensures DatabaseTypeError != LogLevelError
    ensures MongodbUrlError != LogLevelError
  {
    assert DatabaseTypeError[0] == 'D';
    assert MongodbUrlError[0] == 'M';
    assert LogLevelError[0] == 'L';
  }

  /** Loading settings that are already validated changes nothing. */
  lemma LoadValidatedIsIdentity(s: Settings)
    requires Validated(s)
    ensures ValidateSettings(s) == Success(s)
  {
    var t := s.databaseType;
    var l := s.logLevel;
    assert Lower(t) == t by {
      assert t == "sqlite" || t == "mongodb";
    }
    assert Upper(l) == l by {
      assert l == "DEBUG" || l == "INFO" || l == "WARNING" || l == "ERROR" || l == "CRITICAL";
    }
  }

  /** Loading is idempotent. */
  lemma LoadIdempotent(raw: Settings)
    requires ValidateSettings(raw).Success?
    ensures ValidateSettings(ValidateSettings(raw).value) == ValidateSettings(raw)
  {
    LoadValidatedIsIdentity(ValidateSettings(raw).value);
  }

  /** The defaults pass every validator unchanged. */
  lemma DefaultsAreValid()
    ensures Validated(Defaults)
    ensures ValidateSettings(Defaults) == Success(Defaults)
  {
    assert StartsWith(Defaults.mongodbUrl, PlainScheme) by {
      assert Defaults.mongodbUrl[..|PlainScheme|] == PlainScheme;
    }
    LoadValidatedIsIdentity(Defaults);
  }

  // ---------------------------------------------------------------------------
  // Derived properties
  // ---------------------------------------------------------------------------

  /** `is_development`: the environment name, in any letter case, is
      "development". */
  function IsDevelopment(s: Settings): (r: bool)
    ensures r <==> |s.appEnv| == 11
                   && forall k :: 0 <= k < 11 ==> s.appEnv[k] == "development"[k] || s.appEnv[k] == "DEVELOPMENT"[k]
  {
    Lower(s.appEnv) == "development"
  }

  /** `is_production`: the environment name, in any letter case, is
      "production". */
  function IsProduction(s: Settings): (r: bool)
    ensures r <==> |s.appEnv| == 10
                   && forall k :: 0 <= k < 10 ==> s.appEnv[k] == "production"[k] || s.appEnv[k] == "PRODUCTION"[k]
  {
    Lower(s.appEnv) == "production"
  }

  /** `is_testing`: the environment name, in any letter case, is "testing". */
  function IsTesting(s: Settings): (r: bool)
    ensures r <==> |s.appEnv| == 7
                   && forall k :: 0 <= k < 7 ==> s.appEnv[k] == "testing"[k] || s.appEnv[k] == "TESTING"[k]
  {
    Lower(s.appEnv) == "testing"
  }

  /** The three modes exclude each other, and only the three names (in any
      letter case) select one. */
  lemma ModesExclusive(s: Settings)
    ensures !(IsDevelopment(s) && IsProduction(s))
    ensures !(IsDevelopment(s) && IsTesting(s))
    ensures !(IsProduction(s) && IsTesting(s))
    ensures IsDevelopment(s) ==> |s.appEnv| == 11
    ensures IsProduction(s) ==> |s.appEnv| == 10
    ensures IsTesting(s) ==> |s.appEnv| == 7
  {
  }

  const UnsupportedType: string := "Unsupported database type: "

  /** `database_url`: the URL of the selected store. */
  function DatabaseUrl(s: Settings): (r: Result<string, string>)
    ensures s.databaseType == "sqlite" ==> r == Success(s.sqliteDatabaseUrl)
    ensures s.databaseType == "mongodb" ==> r == Success(s.mongodbUrl)
    ensures r.Failure? <==> s.databaseType !in AllowedTypes
    ensures r.Failure? ==> r.error == UnsupportedType + s.databaseType
  {
    if s.databaseType == "sqlite" then Success(s.sqliteDatabaseUrl)
    else if s.databaseType == "mongodb" then Success(s.mongodbUrl)
    else Failure(UnsupportedType + s.databaseType)
  }

  /** Python truthiness of an optional text: present and not empty. */
  predicate Truthy(o: Option<string>)
  {
    o.Some? && o.value != []
  }

  /** `mongodb_connection_string`: with both a user name and a password,
      every occurrence of the URL's scheme is replaced by the scheme followed
      by `user:password@`; otherwise, or for a URL with neither scheme, the
      URL as it is. */
  function MongodbConnectionString(s: Settings): (r: string)
    ensures !(Truthy(s.mongodbUsername) && Truthy(s.mongodbPassword)) ==> r == s.mongodbUrl
    ensures !StartsWith(s.mongodbUrl, PlainScheme) && !StartsWith(s.mongodbUrl, SrvScheme)
            ==> r == s.mongodbUrl
    ensures Truthy(s.mongodbUsername) && Truthy(s.mongodbPassword)
            && (StartsWith(s.mongodbUrl, PlainScheme) || StartsWith(s.mongodbUrl, SrvScheme))
            ==> var scheme := if StartsWith(s.mongodbUrl, PlainScheme) then PlainScheme else SrvScheme;
                StartsWith(r, scheme + s.mongodbUsername.value + ":" + s.mongodbPassword.value + "@")
  {
    if Truthy(s.mongodbUsername) && Truthy(s.mongodbPassword) then
      var creds := s.mongodbUsername.value + ":" + s.mongodbPassword.value + "@";
      if StartsWith(s.mongodbUrl, PlainScheme) then
        ReplaceAll(s.mongodbUrl, PlainScheme, PlainScheme + creds)
      else if StartsWith(s.mongodbUrl, SrvScheme) then
        ReplaceAll(s.mongodbUrl, SrvScheme, SrvScheme + creds)
      else s.mongodbUrl
    else s.mongodbUrl
  }

  /** Without both credentials the connection string is the URL. */
  lemma NoCredentialsKeepsUrl(s: Settings)
    requires !Truthy(s.mongodbUsername) || !Truthy(s.mongodbPassword)
    ensures MongodbConnectionString(s) == s.mongodbUrl == DatabaseUrl(s.(databaseType := "mongodb")).value
  {
  }

  /** With both credentials and a URL whose scheme does not recur, the
      credentials are inserted right after the scheme and the rest of the
      URL is kept. */
  lemma CredentialsFollowScheme(s: Settings, scheme: string)
    requires Truthy(s.mongodbUsername) && Truthy(s.mongodbPassword)
    requires scheme == PlainScheme || scheme == SrvScheme
    requires StartsWith(s.mongodbUrl, scheme)
    requires !Occurs(s.mongodbUrl[|scheme|..], scheme)
    ensures MongodbConnectionString(s)
            == scheme + s.mongodbUsername.value + ":" + s.mongodbPassword.value + "@"
               + s.mongodbUrl[|scheme|..]
  {
    var creds := s.mongodbUsername.value + ":" + s.mongodbPassword.value + "@";
    if scheme == SrvScheme {
      assert !StartsWith(s.mongodbUrl, PlainScheme) by {
        assert s.mongodbUrl[7] == '+';
      }
    }
    ReplaceLeadingOnly(s.mongodbUrl, scheme, scheme + creds);
  }

  /** `str.replace` rewrites every occurrence of the scheme, not only the
      leading one: in a URL where the scheme appears a second time, both
      occurrences receive the credentials. */
  lemma SchemeRewrittenEverywhere(s: Settings, scheme: string, mid: string, tail: string)
    requires Truthy(s.mongodbUsername) && Truthy(s.mongodbPassword)
    requires scheme == PlainScheme || scheme == SrvScheme
    requires s.mongodbUrl == scheme + (mid + (scheme + tail))
    requires forall k: nat :: k < |mid| ==> !OccursAt(mid + (scheme + tail), scheme, k)
    requires !Occurs(tail, scheme)
    ensures var rep := scheme + s.mongodbUsername.value + ":" + s.mongodbPassword.value + "@";
            MongodbConnectionString(s) == rep + (mid + (rep + tail))
  {
    var rep := scheme + s.mongodbUsername.value + ":" + s.mongodbPassword.value + "@";
    assert s.mongodbUrl[..|scheme|] == scheme;
    SchemeReplaced(s, scheme);
    ReplaceTwice(scheme, mid, tail, rep);
  }

  /** With both credentials, the connection string is the URL with its
      scheme replaced as `str.replace` does. */
  lemma SchemeReplaced(s: Settings, scheme: string)
    requires Truthy(s.mongodbUsername) && Truthy(s.mongodbPassword)
    requires scheme == PlainScheme || scheme == SrvScheme
    requires StartsWith(s.mongodbUrl, scheme)
    ensures MongodbConnectionString(s)
            == ReplaceAll(s.mongodbUrl, scheme,
                          scheme + s.mongodbUsername.value + ":" + s.mongodbPassword.value + "@")
  {
    if scheme == SrvScheme {
      assert !StartsWith(s.mongodbUrl, PlainScheme) by {
        assert s.mongodbUrl[7] == '+';
      }
    }
  }

  /** The configuration `get_database_config` returns for each store. */
  datatype DatabaseConfig =
    | SqliteConfig(url: string, echo: bool)
    | MongoConfig(url: string, databaseName: string, minConnections: int,
                  maxConnections: int, maxIdleTimeMs: int)

  /** `get_database_config`: the selected store's configuration; the document
      store's URL carries the credentials. */
  function GetDatabaseConfig(s: Settings): (r: Result<DatabaseConfig, string>)
    ensures r.Failure? <==> DatabaseUrl(s).Failure?
    ensures r.Failure? ==> r.error == DatabaseUrl(s).error
    ensures s.databaseType == "sqlite" ==>
              r == Success(SqliteConfig(DatabaseUrl(s).value, s.sqliteEcho))
    ensures s.databaseType == "mongodb" ==>
              && r.Success? && r.value.MongoConfig?
              && r.value.url == MongodbConnectionString(s)
              && r.value.databaseName == s.mongodbDatabaseName
              && r.value.minConnections == s.mongodbMinConnections
              && r.value.maxConnections == s.mongodbMaxConnections
              && r.value.maxIdleTimeMs == s.mongodbMaxIdleTimeMs
  {
    if s.databaseType == "sqlite" then
      Success(SqliteConfig(s.sqliteDatabaseUrl, s.sqliteEcho))
    else if s.databaseType == "mongodb" then
      Success(MongoConfig(MongodbConnectionString(s), s.mongodbDatabaseName,
                          s.mongodbMinConnections, s.mongodbMaxConnections,
                          s.mongodbMaxIdleTimeMs))
    else Failure(UnsupportedType + s.databaseType)
  }

  /** Loaded settings always name a supported store: neither property can
      raise once validation has passed. */
  lemma LoadedSettingsHaveConfig(raw: Settings)
    requires ValidateSettings(raw).Success?
    ensures DatabaseUrl(ValidateSettings(raw).value).Success?
    ensures GetDatabaseConfig(ValidateSettings(raw).value).Success?
  {
  }

  /** The defaults select the file-based store at its default path. */
  lemma DefaultConfig()
    ensures IsDevelopment(Defaults) && !IsProduction(Defaults) && !IsTesting(Defaults)
    ensures GetDatabaseConfig(Defaults)
            == Success(SqliteConfig("sqlite:///./class_management.db", false))
  {
    assert Lower(Defaults.appEnv) == "development";
    ModesExclusive(Defaults);
  }
}

=== FILE: dates.dfy ===
/** Gregorian calendar dates as Python's `datetime.date` holds them, their
    ISO `YYYY-MM-DD` rendering (`date.isoformat()`) and the parser that reads
    that rendering back (`datetime.strptime(s, "%Y-%m-%d").date()`).
 */
module Dates {
  import opened Wrappers
  import opened Text

  /** A year, month and day; not necessarily a date that exists. */
  datatype Date = Date(year: int, month: int, day: int)

  const MinYear: int := 1
  const MaxYear: int := 9999

  predicate IsLeapYear(y: int)
  {
    y % 4 == 0 && (y % 100 != 0 || y % 400 == 0)
  }

  function DaysInMonth(y: int, m: int): (n: int)
    requires 1 <= m <= 12
    ensures 28 <= n <= 31
    ensures m == 2 ==> (n == 29 <==> IsLeapYear(y))
  {
    if m == 2 then (if IsLeapYear(y) then 29 else 28)
    else if m == 4 || m == 6 || m == 9 || m == 11 then 30
    else 31
  }

  /** The dates Python's `date` can represent. */
  predicate IsValid(d: Date)
  {
    && MinYear <= d.year <= MaxYear
    && 1 <= d.month <= 12
    && 1 <= d.day <= DaysInMonth(d.year, d.month)
  }

  /** A value of Python's `datetime.date`. */
  type CalendarDate = d: Date | IsValid(d) witness Date(1, 1, 1)

  /** Chronological order: `a < b` on Python dates, which compares year, then
      month, then day. */
  predicate Before(a: Date, b: Date)
  {
    a.year < b.year
    || (a.year == b.year && (a.month < b.month || (a.month == b.month && a.day < b.day)))
  }

  /** `d.isoformat()`: four-digit year, two-digit month and day. */
  function IsoFormat(d: CalendarDate): (r: string)
    ensures |r| == 10 && r[4] == '-' && r[7] == '-'
    ensures AllDigits(r[..4]) && AllDigits(r[5..7]) && AllDigits(r[8..])
  {
    var r := Pad(d.year, 4) + "-" + Pad(d.month, 2) + "-" + Pad(d.day, 2);
    assert r[..4] == Pad(d.year, 4) && r[5..7] == Pad(d.month, 2) && r[8..] == Pad(d.day, 2);
    r
  }

  /** `strptime(s, "%Y-%m-%d")` for the zero-padded form: four digits, a
      hyphen, two digits, a hyphen, two digits, nothing else, denoting a date
      that exists. Anything it accepts is the ISO rendering of the result. */
  function ParseIso(s: string): (r: Option<CalendarDate>)
    ensures r.Some? ==> IsoFormat(r.value) == s
  {
    if |s| == 10 && s[4] == '-' && s[7] == '-'
       && AllDigits(s[..4]) && AllDigits(s[5..7]) && AllDigits(s[8..])
    then
      var d := Date(ValueOf(s[..4]), ValueOf(s[5..7]), ValueOf(s[8..]));
      if IsValid(d) then
        PadValueOf(s[..4]);
        PadValueOf(s[5..7]);
        PadValueOf(s[8..]);
        assert s == s[..4] + "-" + s[5..7] + "-" + s[8..];
        Some(d)
      else None
    else None
  }

  /** Parsing the ISO rendering of any date gives that date back. */
  lemma ParseIsoFormat(d: CalendarDate)
    ensures ParseIso(IsoFormat(d)) == Some(d)
  {
    var s := IsoFormat(d);
    assert Pow10(4) == 10000 && Pow10(2) == 100;
    assert s[..4] == Pad(d.year, 4) && s[5..7] == Pad(d.month, 2) && s[8..] == Pad(d.day, 2);
    ValueOfPad(d.year, 4);
    ValueOfPad(d.month, 2);
    ValueOfPad(d.day, 2);
  }

  /** The parser accepts exactly the ISO renderings of dates, each for the
      date it renders. */
  lemma ParseIsoExactly(s: string, d: CalendarDate)
    ensures ParseIso(s) == Some(d) <==> IsoFormat(d) == s
  {
    ParseIsoFormat(d);
  }

  /** The twenty-ninth of February exists exactly in leap years. */
  lemma LeapDay(y: int)
    requires MinYear <= y <= MaxYear
    ensures IsValid(Date(y, 2, 29)) <==> IsLeapYear(y)
  {
  }
}

=== FILE: models.dfy ===
/** The relational `Student` row: its columns, the derived full name, the
    dictionary the API returns (`to_dict`), the debug text (`__repr__`), the
    two unique columns and the row id the database assigns.
 */
module Models {
  import opened Wrappers
  import opened Text
  import opened Dates

  /** The ISO text of a clock reading (`datetime.isoformat()`). Clock values
      are opaque to the model: they are passed in, never computed. */
  type Timestamp = string

  /** A value of the dictionary `to_dict` returns (a JSON scalar). */
  datatype Value = Null | Int(i: int) | Str(s: string)

  /** The keys of the dictionary a stored student is rendered as. */
  const RecordKeys: set<string> :=
    {"id", "student_id", "first_name", "last_name", "full_name", "email", "phone",
     "date_of_birth", "address", "enrollment_date", "created_at", "updated_at"}

  /** An optional string column: `None` becomes `null`. */
  function TextValue(o: Option<string>): (v: Value)
    ensures v == Null <==> o.None?
    ensures o.Some? ==> v == Str(o.value)
  {
    match o
    case None => Null
    case Some(s) => Str(s)
  }

  /** An optional date column: `d.isoformat() if d else None`. */
  function DateValue(o: Option<CalendarDate>): (v: Value)
    ensures v == Null <==> o.None?
    ensures o.Some? ==> v == Str(IsoFormat(o.value))
    ensures v.Str? ==> ParseIso(v.s) == o
  {
    match o
    case None => Null
    case Some(d) => ParseIsoFormat(d); Str(IsoFormat(d))
  }

  /** A student's full name, as both stores derive it: the first name, one
      space, the last name; both parts can be read back from it. */
  function FullNameOf(first: string, last: string): (r: string)
    ensures |r| == |first| + 1 + |last|
    ensures r[..|first|] == first
    ensures r[|first|] == ' '
    ensures r[|first| + 1..] == last
  {
    first + " " + last
  }

  /** The values `create_student` takes, in both stores: the caller's text
      before normalisation, or the normalised text that is stored. */
  datatype StudentInput = StudentInput(
    studentId: string,
    firstName: string,
    lastName: string,
    email: string,
    phone: Option<string>,
    dateOfBirth: Option<CalendarDate>,
    address: Option<string>)

  /** A row of the `students` table once it has been committed. */
  datatype Student = Student(
    id: nat,
    studentId: string,
    firstName: string,
    lastName: string,
    email: string,
    phone: Option<string>,
    dateOfBirth: Option<CalendarDate>,
    address: Option<string>,
    enrollmentDate: CalendarDate,
    createdAt: Timestamp,
    updatedAt: Timestamp)
  {
    /** The caller-supplied columns of the row. */
    function Fields(): StudentInput
    {
      StudentInput(studentId, firstName, lastName, email, phone, dateOfBirth, address)
    }

    /** The `full_name` property. */
    function FullName(): string
    {
      FullNameOf(firstName, lastName)
    }

    /** `to_dict()`: twelve keys; `full_name` is the property; dates are
        rendered so that parsing them back gives the stored date; absent
        optional columns are `null`. */
    function ToDict(): (r: map<string, Value>)
      ensures r.Keys == RecordKeys
      ensures r["id"] == Int(id)
      ensures r["student_id"] == Str(studentId) && r["email"] == Str(email)
      ensures r["first_name"] == Str(firstName) && r["last_name"] == Str(lastName)
      ensures r["full_name"] == Str(FullName())
      ensures r["phone"] == Null <==> phone.None?
      ensures phone.Some? ==> r["phone"] == Str(phone.value)
      ensures r["address"] == Null <==> address.None?
      ensures address.Some? ==> r["address"] == Str(address.value)
      ensures r["date_of_birth"] == Null <==> dateOfBirth.None?
      ensures dateOfBirth.Some? ==> r["date_of_birth"] == Str(IsoFormat(dateOfBirth.value))
      ensures r["date_of_birth"].Str? ==> ParseIso(r["date_of_birth"].s) == dateOfBirth
      ensures r["enrollment_date"] == Str(IsoFormat(enrollmentDate))
      ensures r["enrollment_date"].Str? && ParseIso(r["enrollment_date"].s) == Some(enrollmentDate)
      ensures r["created_at"] == Str(createdAt) && r["updated_at"] == Str(updatedAt)
    {
      map[
        "id" := Int(id),
        "student_id" := Str(studentId),
        "first_name" := Str(firstName),
        "last_name" := Str(lastName),
        "full_name" := Str(FullName()),
        "email" := Str(email),
        "phone" := TextValue(phone),
        "date_of_birth" := DateValue(dateOfBirth),
        "address" := TextValue(address),
        "enrollment_date" := DateValue(Some(enrollmentDate)),
        "created_at" := Str(createdAt),
        "updated_at" := Str(updatedAt)
      ]
    }

    /** `__repr__()`:
        `<Student(id=<id>, student_id='<sid>', name='<full name>', email='<email>')>`. */
    function Repr(): (r: string)
      ensures StartsWith(r, ReprPrefix)
      ensures r[|ReprPrefix|..] == NatToString(id) + ", student_id='" + studentId
                                   + "', name='" + FullName() + "', email='" + email + "')>"
    {
      var tail := NatToString(id) + ", student_id='" + studentId + "', name='" + FullName()
                  + "', email='" + email + "')>";
      assert (ReprPrefix + tail)[|ReprPrefix|..] == tail;
      ReprPrefix + tail
    }
  }

  const ReprPrefix: string := "<Student(id="

  /** Reads the row id back from a `__repr__` text. */
  function ReprId(text: string): Option<nat>
  {
    if StartsWith(text, ReprPrefix) then
      var ds := LeadingDigits(text[|ReprPrefix|..]);
      if ds == [] then None else Some(ValueOf(ds))
    else None
  }

  /** The repr of a row names that row's id, and nothing else can be read
      in its place. */
  lemma ReprShowsId(s: Student)
    ensures ReprId(s.Repr()) == Some(s.id)
  {
    var rest := ", student_id='" + s.studentId + "', name='" + s.FullName()
                + "', email='" + s.email + "')>";
    assert s.Repr()[|ReprPrefix|..] == NatToString(s.id) + rest;
    LeadingDigitsOf(NatToString(s.id), rest);
  }

  /** The two unique columns, `student_id` and `email`, and the primary key
      hold distinct values in distinct rows. */
  predicate UniqueKeys(rows: seq<Student>)
  {
    forall i, j :: 0 <= i < j < |rows| ==>
      && rows[i].id != rows[j].id
      && rows[i].studentId != rows[j].studentId
      && rows[i].email != rows[j].email
  }

  /** The greatest row id in use (0 for an empty table). */
  function MaxId(rows: seq<Student>): (m: nat)
    ensures forall i :: 0 <= i < |rows| ==> rows[i].id <= m
    ensures |rows| > 0 ==> exists i :: 0 <= i < |rows| && rows[i].id == m
  {
    if |rows| == 0 then 0
    else
      var m := MaxId(rows[..|rows| - 1]);
      var last := rows[|rows| - 1].id;
      assert forall i :: 0 <= i < |rows| - 1 ==> rows[..|rows| - 1][i] == rows[i];
      if last > m then last else m
  }

  /** The id SQLite gives the next inserted row of an integer primary key
      when rows are never deleted: one more than the largest in use. */
  function NextId(rows: seq<Student>): (n: nat)
    ensures n >= 1
    ensures forall i :: 0 <= i < |rows| ==> rows[i].id < n
  {
    MaxId(rows) + 1
  }
}

=== FILE: mongo.dfy ===
/** The document-store backend: `StudentDocument` and
    `MongoStudentRepository.create_student` / `get_by_email` /
    `get_by_student_id`. The collection is a sequence of documents in
    insertion order; the driver's unique indexes (created at start-up, outside
    this model) are not part of it, so uniqueness rests on the two pre-checks.
 */
module MongoStore {
  import opened Wrappers
  import opened Text
  import opened Dates
  import opened Models
  import opened Repository

  /** A stored student document; `id` is the text of its ObjectId. */
  datatype StudentDocument = StudentDocument(
    id: string,
    studentId: string,
    firstName: string,
    lastName: string,
    email: string,
    phone: Option<string>,
    dateOfBirth: Option<CalendarDate>,
    address: Option<string>,
    enrollmentDate: CalendarDate,
    createdAt: Timestamp,
    updatedAt: Timestamp)
  {
    /** The caller-supplied fields of the document. */
    function Fields(): StudentInput
    {
      StudentInput(studentId, firstName, lastName, email, phone, dateOfBirth, address)
    }

    /** The `full_name` property, derived as for a relational row. */
    function FullName(): string
    {
      FullNameOf(firstName, lastName)
    }

    /** `to_dict()`: the document's fields, `id` as a string and `full_name`
        added, dates in ISO form (a missing birth date stays `null`). */
    function ToDict(): (r: map<string, Value>)
      ensures r.Keys == RecordKeys
      ensures r["id"] == Str(id)
      ensures r["full_name"] == Str(FullName())
      ensures r["student_id"] == Str(studentId) && r["email"] == Str(email)
      ensures r["first_name"] == Str(firstName) && r["last_name"] == Str(lastName)
      ensures r["phone"] == Null <==> phone.None?
      ensures phone.Some? ==> r["phone"] == Str(phone.value)
      ensures r["address"] == Null <==> address.None?
      ensures address.Some? ==> r["address"] == Str(address.value)
      ensures r["date_of_birth"] == Null <==> dateOfBirth.None?
      ensures dateOfBirth.Some? ==> r["date_of_birth"] == Str(IsoFormat(dateOfBirth.value))
      ensures r["date_of_birth"].Str? ==> ParseIso(r["date_of_birth"].s) == dateOfBirth
      ensures r["enrollment_date"] == Str(IsoFormat(enrollmentDate))
      ensures r["enrollment_date"].Str? && ParseIso(r["enrollment_date"].s) == Some(enrollmentDate)
      ensures r["created_at"] == Str(createdAt) && r["updated_at"] == Str(updatedAt)
    {
      map[
        "id" := Str(id),
        "student_id" := Str(studentId),
        "first_name" := Str(firstName),
        "last_name" := Str(lastName),
        "email" := Str(email),
        "phone" := TextValue(phone),
        "date_of_birth" := DateValue(dateOfBirth),
        "address" := TextValue(address),
        "enrollment_date" := DateValue(Some(enrollmentDate)),
        "created_at" := Str(createdAt),
        "updated_at" := Str(updatedAt),
        "full_name" := Str(FullName())
      ]
    }
  }

  const FailurePrefix: string := "Failed to create student: "

  /** `raise Exception(f"Failed to create student: {str(e)}")`. */
  function Wrapped(message: string): (r: string)
    ensures StartsWith(r, FailurePrefix)
    ensures r[|FailurePrefix|..] == message
  {
    FailurePrefix + message
  }

  predicate HasStudentId(docs: seq<StudentDocument>, studentId: string)
  {
    exists i :: 0 <= i < |docs| && docs[i].studentId == studentId
  }

  predicate HasEmail(docs: seq<StudentDocument>, email: string)
  {
    exists i :: 0 <= i < |docs| && docs[i].email == email
  }

  /** `find_one(StudentDocument.email == key)`: the first document holding
      `key`, if any. */
  function FindByEmail(docs: seq<StudentDocument>, key: string): (r: Option<StudentDocument>)
    ensures r.Some? <==> HasEmail(docs, key)
    ensures r.Some? ==> r.value in docs && r.value.email == key
  {
    if |docs| == 0 then None
    else if docs[0].email == key then Some(docs[0])
    else
      var r := FindByEmail(docs[1..], key);
      assert HasEmail(docs, key) ==> HasEmail(docs[1..], key) by {
        if HasEmail(docs, key) {
          var i :| 0 <= i < |docs| && docs[i].email == key;
          assert docs[1..][i - 1] == docs[i];
        }
      }
      assert HasEmail(docs[1..], key) ==> HasEmail(docs, key) by {
        if HasEmail(docs[1..], key) {
          var i :| 0 <= i < |docs[1..]| && docs[1..][i].email == key;
          assert docs[i + 1] == docs[1..][i];
        }
      }
      r
  }

  /** `find_one(StudentDocument.student_id == key)`: the first document
      holding `key`, if any. */
  function FindByStudentId(docs: seq<StudentDocument>, key: string): (r: Option<StudentDocument>)
    ensures r.Some? <==> HasStudentId(docs, key)
    ensures r.Some? ==> r.value in docs && r.value.studentId == key
  {
    if |docs| == 0 then None
    else if docs[0].studentId == key then Some(docs[0])
    else
      var r := FindByStudentId(docs[1..], key);
      assert HasStudentId(docs, key) ==> HasStudentId(docs[1..], key) by {
        if HasStudentId(docs, key) {
          var i :| 0 <= i < |docs| && docs[i].studentId == key;
          assert docs[1..][i - 1] == docs[i];
        }
      }
      assert HasStudentId(docs[1..], key) ==> HasStudentId(docs, key) by {
        if HasStudentId(docs[1..], key) {
          var i :| 0 <= i < |docs[1..]| && docs[1..][i].studentId == key;
          assert docs[i + 1] == docs[1..][i];
        }
      }
      r
  }

  /** `get_by_email`: the query is lower-cased and trimmed first, so any
      letter case or padding of a stored address finds it. */
  function GetByEmail(docs: seq<StudentDocument>, email: string): (r: Option<StudentDocument>)
    ensures r.Some? <==> HasEmail(docs, Strip(Lower(email)))
    ensures r.Some? ==> r.value in docs && r.value.email == Strip(Lower(email))
  {
    FindByEmail(docs, Strip(Lower(email)))
  }

  /** `get_by_student_id`: the query is compared as given. */
  function GetByStudentId(docs: seq<StudentDocument>, studentId: string): (r: Option<StudentDocument>)
    ensures r.Some? <==> HasStudentId(docs, studentId)
    ensures r.Some? ==> r.value in docs && r.value.studentId == studentId
  {
    FindByStudentId(docs, studentId)
  }

  /** The document `create_student` saves: the normalised values, the given
      ObjectId, `enrollment_date` = `today`, both timestamps `now`. */
  function NewDocument(input: StudentInput, newId: string, today: CalendarDate,
                       now: Timestamp): (d: StudentDocument)
    ensures d.Fields() == Normalize(input)
    ensures d.id == newId && d.enrollmentDate == today
    ensures d.createdAt == now && d.updatedAt == now
  {
    var n := Normalize(input);
    StudentDocument(newId, n.studentId, n.firstName, n.lastName, n.email, n.phone,
                    n.dateOfBirth, n.address, today, now, now)
  }

  /** `MongoStudentRepository.create_student`, as written: the student ID
      pre-check compares the caller's text untrimmed, the e-mail pre-check
      compares it lower-cased and trimmed; the document is saved only after
      both pass; every failure is re-raised behind "Failed to create
      student: ". `newId` is the ObjectId the driver assigns. */
  function CreateStudent(docs: seq<StudentDocument>, input: StudentInput, newId: string,
                         today: CalendarDate, now: Timestamp): (r: Attempt<seq<StudentDocument>, StudentDocument>)
    ensures r.result.Failure? ==> r.state == docs && StartsWith(r.result.error, FailurePrefix)
    ensures r.result == Failure(Wrapped(IdConflict(input.studentId)))
            <==> HasStudentId(docs, input.studentId)
    ensures r.result == Failure(Wrapped(EmailConflict(input.email)))
            <==> !HasStudentId(docs, input.studentId) && HasEmail(docs, Strip(Lower(input.email)))
    ensures !HasStudentId(docs, input.studentId) && !HasEmail(docs, Strip(Lower(input.email)))
            ==> r.result.Success?
    ensures r.result.Success? ==>
              && r.state == docs + [r.result.value]
              && r.result.value == NewDocument(input, newId, today, now)
  {
    ConflictMessagesDiffer(input.studentId, input.email);
    assert Wrapped(IdConflict(input.studentId)) != Wrapped(EmailConflict(input.email)) by {
      assert Wrapped(IdConflict(input.studentId))[|FailurePrefix|..] == IdConflict(input.studentId);
      assert Wrapped(EmailConflict(input.email))[|FailurePrefix|..] == EmailConflict(input.email);
    }
    if GetByStudentId(docs, input.studentId).Some? then
      Attempt(docs, Failure(Wrapped(IdConflict(input.studentId))))
    else if GetByEmail(docs, input.email).Some? then
      Attempt(docs, Failure(Wrapped(EmailConflict(input.email))))
    else
      var doc := NewDocument(input, newId, today, now);
      Attempt(docs + [doc], Success(doc))
  }

  /** Distinct documents hold distinct e-mails. */
  predicate UniqueEmails(docs: seq<StudentDocument>)
  {
    forall i, j :: 0 <= i < j < |docs| ==> docs[i].email != docs[j].email
  }

  /** Distinct documents hold distinct student IDs and distinct e-mails. */
  predicate UniqueKeysDocs(docs: seq<StudentDocument>)
  {
    forall i, j :: 0 <= i < j < |docs| ==>
      docs[i].studentId != docs[j].studentId && docs[i].email != docs[j].email
  }

  /** The e-mail pre-check compares the stored form, so e-mails stay unique. */
  lemma CreateKeepsEmailsUnique(docs: seq<StudentDocument>, input: StudentInput, newId: string,
                                today: CalendarDate, now: Timestamp)
    requires UniqueEmails(docs)
    ensures UniqueEmails(CreateStudent(docs, input, newId, today, now).state)
  {
    var r := CreateStudent(docs, input, newId, today, now);
    if r.result.Success? {
      var s := r.state;
      forall i, j | 0 <= i < j < |s| ensures s[i].email != s[j].email {
        if j == |docs| {
          assert s[i] == docs[i] && s[j] == r.result.value;
        } else {
          assert s[i] == docs[i] && s[j] == docs[j];
        }
      }
    }
  }

  /** After a successful create, looking the e-mail up again, in any letter
      case or padding that normalises to the same text, finds the new
      document. */
  lemma CreateThenGetByEmail(docs: seq<StudentDocument>, input: StudentInput, newId: string,
                             today: CalendarDate, now: Timestamp, query: string)
    requires CreateStudent(docs, input, newId, today, now).result.Success?
    requires Strip(Lower(query)) == Strip(Lower(input.email))
    ensures var r := CreateStudent(docs, input, newId, today, now);
            GetByEmail(r.state, query) == Some(r.result.value)
  {
    var r := CreateStudent(docs, input, newId, today, now);
    FindAfterAppend(docs, r.result.value, Strip(Lower(query)));
  }

  lemma {:induction false} FindAfterAppend(docs: seq<StudentDocument>, doc: StudentDocument,
                                           key: string)
    requires !HasEmail(docs, key) && doc.email == key
    ensures FindByEmail(docs + [doc], key) == Some(doc)
    decreases |docs|
  {
    if |docs| == 0 {
      assert docs + [doc] == [doc];
    } else {
      assert docs[0].email != key;
      assert (docs + [doc])[1..] == docs[1..] + [doc];
      forall i | 0 <= i < |docs[1..]| ensures docs[1..][i].email != key {
        assert docs[1..][i] == docs[i + 1];
      }
      FindAfterAppend(docs[1..], doc, key);
    }
  }

  // ---------------------------------------------------------------------------
  // The untrimmed student-ID pre-check
  // ---------------------------------------------------------------------------

  /** The student-ID pre-check compares the untrimmed text with stored,
      trimmed IDs: an ID that differs from a stored one only by padding
      passes it, and the collection ends up with two documents holding the
      same student ID. */
  lemma PaddedIdSlipsThrough(today: CalendarDate, now: Timestamp)
    ensures var existing := NewDocument(StudentInput("STU001", "Ann", "Lee", "ann@x.com",
                                                     None, None, None), "a1", today, now);
            var again := StudentInput(" STU001", "Bob", "Ray", "bob@x.com", None, None, None);
            var r := CreateStudent([existing], again, "b2", today, now);
            && UniqueKeysDocs([existing])
            && r.result.Success?
            && r.state[0].studentId == r.state[1].studentId
            && !UniqueKeysDocs(r.state)
  {
    var existing := NewDocument(StudentInput("STU001", "Ann", "Lee", "ann@x.com",
                                             None, None, None), "a1", today, now);
    var again := StudentInput(" STU001", "Bob", "Ray", "bob@x.com", None, None, None);
    AnnStored(today, now);
    StoredForms();
    assert !HasStudentId([existing], again.studentId);
    assert !HasEmail([existing], Strip(Lower(again.email)));
    var r := CreateStudent([existing], again, "b2", today, now);
    assert r.state[1] == NewDocument(again, "b2", today, now);
  }

  lemma AnnStored(today: CalendarDate, now: Timestamp)
    ensures NewDocument(StudentInput("STU001", "Ann", "Lee", "ann@x.com", None, None, None),
                        "a1", today, now).studentId == "STU001"
    ensures NewDocument(StudentInput("STU001", "Ann", "Lee", "ann@x.com", None, None, None),
                        "a1", today, now).email == "ann@x.com"
  {
    StripPadded([], "STU001", []);
    assert [] + "STU001" + [] == "STU001";
    assert Lower("ann@x.com") == "ann@x.com";
    StripPadded([], "ann@x.com", []);
    assert [] + "ann@x.com" + [] == "ann@x.com";
  }

  lemma StoredForms()
    ensures Strip(" STU001") == "STU001"
    ensures Strip(Lower("bob@x.com")) == "bob@x.com"
  {
    StripPadded([' '], "STU001", []);
    assert [' '] + "STU001" + [] == " STU001";
    assert Lower("bob@x.com") == "bob@x.com";
    StripPadded([], "bob@x.com", []);
    assert [] + "bob@x.com" + [] == "bob@x.com";
  }

  /** The pre-check with the student ID trimmed first, as the relational
      store's unique column effectively compares it. */
  function CreateStudentTrimmedCheck(docs: seq<StudentDocument>, input: StudentInput, newId: string,
                                     today: CalendarDate, now: Timestamp)
    : (r: Attempt<seq<StudentDocument>, StudentDocument>)
    ensures r.result.Failure? ==> r.state == docs && StartsWith(r.result.error, FailurePrefix)
    ensures r.result == Failure(Wrapped(IdConflict(input.studentId)))
            <==> HasStudentId(docs, Strip(input.studentId))
    ensures r.result == Failure(Wrapped(EmailConflict(input.email)))
            <==> !HasStudentId(docs, Strip(input.studentId)) && HasEmail(docs, Strip(Lower(input.email)))
    ensures !HasStudentId(docs, Strip(input.studentId)) && !HasEmail(docs, Strip(Lower(input.email)))
            ==> r.result.Success?
    ensures r.result.Success? ==>
              && r.state == docs + [r.result.value]
              && r.result.value == NewDocument(input, newId, today, now)
    ensures UniqueKeysDocs(docs) ==> UniqueKeysDocs(r.state)
  {
    ConflictMessagesDiffer(input.studentId, input.email);
    assert Wrapped(IdConflict(input.studentId)) != Wrapped(EmailConflict(input.email)) by {
      assert Wrapped(IdConflict(input.studentId))[|FailurePrefix|..] == IdConflict(input.studentId);
      assert Wrapped(EmailConflict(input.email))[|FailurePrefix|..] == EmailConflict(input.email);
    }
    if GetByStudentId(docs, Strip(input.studentId)).Some? then
      Attempt(docs, Failure(Wrapped(IdConflict(input.studentId))))
    else if GetByEmail(docs, input.email).Some? then
      Attempt(docs, Failure(Wrapped(EmailConflict(input.email))))
    else
      var doc := NewDocument(input, newId, today, now);
      var s := docs + [doc];
      assert UniqueKeysDocs(docs) ==> UniqueKeysDocs(s) by {
        if UniqueKeysDocs(docs) {
          forall i, j | 0 <= i < j < |s|
            ensures s[i].studentId != s[j].studentId && s[i].email != s[j].email
          {
            if j == |docs| {
              assert s[i] == docs[i] && s[j] == doc;
            } else {
              assert s[i] == docs[i] && s[j] == docs[j];
            }
          }
        }
      }
      Attempt(s, Success(doc))
  }

  /** With the trimmed pre-check, the padded resubmission of "STU001" is
      refused with the ID conflict and the collection is left as it was. */
  lemma PaddedIdRefusedWhenTrimmed(today: CalendarDate, now: Timestamp)
    ensures var existing := NewDocument(StudentInput("STU001", "Ann", "Lee", "ann@x.com",
                                                     None, None, None), "a1", today, now);
            var again := StudentInput(" STU001", "Bob", "Ray", "bob@x.com", None, None, None);
            CreateStudentTrimmedCheck([existing], again, "b2", today, now)
            == Attempt([existing], Failure(Wrapped(IdConflict(" STU001"))))
  {
    var existing := NewDocument(StudentInput("STU001", "Ann", "Lee", "ann@x.com",
                                             None, None, None), "a1", today, now);
    AnnStored(today, now);
    StoredForms();
    assert HasStudentId([existing], Strip(" STU001")) by {
      assert [existing][0].studentId == "STU001";
    }
  }

  // ---------------------------------------------------------------------------
  // Agreement with the relational store
  // ---------------------------------------------------------------------------

  /** Both stores store the same normalised values, enrollment date and
      timestamps for the same arguments. */
  lemma BackendsNormalizeAlike(rows: seq<Student>, docs: seq<StudentDocument>, input: StudentInput,
                               newId: string, today: CalendarDate, now: Timestamp)
    requires Repository.CreateStudent(rows, input, today, now).result.Success?
    requires CreateStudent(docs, input, newId, today, now).result.Success?
    ensures var row := Repository.CreateStudent(rows, input, today, now).result.value;
            var doc := CreateStudent(docs, input, newId, today, now).result.value;
            && row.Fields() == doc.Fields()
            && row.enrollmentDate == doc.enrollmentDate
            && row.createdAt == doc.createdAt && row.updatedAt == doc.updatedAt
  {
  }

  /** A row and a document holding the same values render to dictionaries
      with the same keys that agree everywhere except on `id`. */
  lemma BackendsRenderAlike(row: Student, doc: StudentDocument)
    requires row.Fields() == doc.Fields()
    requires row.enrollmentDate == doc.enrollmentDate
    requires row.createdAt == doc.createdAt && row.updatedAt == doc.updatedAt
    ensures row.ToDict().Keys == doc.ToDict().Keys
    ensures forall k :: k in row.ToDict() && k != "id" ==> row.ToDict()[k] == doc.ToDict()[k]
  {
  }
}

=== FILE: repository.dfy ===
/** `StudentRepository`: the required-field gate (`validate_student_data`)
    and the relational create (`create_student`), which normalises the
    caller's text, stamps the enrollment date and relies on the table's two
    unique columns, rolling back on a clash.
 */
module Repository {
  import opened Wrappers
  import opened Text
  import opened Dates
  import opened Models

  // ---------------------------------------------------------------------------
  // The required-field gate
  // ---------------------------------------------------------------------------

  const IdRequired: string := "Student ID is required"
  const FirstNameRequired: string := "First name is required"
  const LastNameRequired: string := "Last name is required"
  const EmailRequired: string := "Email is required"
  const IdLength: string := "Student ID must be between 3-20 characters"
  const InvalidEmail: string := "Invalid email format"

  const MinIdLength: nat := 3
  const MaxIdLength: nat := 20

  /** Python's `not s or not s.strip()`: absent, empty or blank. */
  predicate Missing(s: Option<string>)
  {
    s.None? || s.value == [] || IsBlank(s.value)
  }

  /** The shape the gate demands of a present e-mail address. */
  predicate EmailShaped(email: string)
  {
    '@' in Strip(email) && '.' in Strip(email)
  }

  /** `validate_student_data`: `(True, "")`, or `False` with the message of
      the first check that fails, in the order student ID present, first
      name present, last name present, e-mail present, student ID of 3 to 20
      characters once trimmed, e-mail containing `@` and `.` once trimmed.
      It looks at its four arguments only, never at a store. */
  function ValidateStudentData(studentId: Option<string>, firstName: Option<string>,
                               lastName: Option<string>, email: Option<string>): (r: (bool, string))
    ensures r.0 <==> r.1 == ""
    ensures Missing(studentId) ==> r == (false, IdRequired)
    ensures !Missing(studentId) && Missing(firstName) ==> r == (false, FirstNameRequired)
    ensures !Missing(studentId) && !Missing(firstName) && Missing(lastName)
            ==> r == (false, LastNameRequired)
    ensures !Missing(studentId) && !Missing(firstName) && !Missing(lastName) && Missing(email)
            ==> r == (false, EmailRequired)
    ensures !Missing(studentId) && !Missing(firstName) && !Missing(lastName) && !Missing(email)
            ==> (r == (false, IdLength) <==> !(MinIdLength <= |Strip(studentId.value)| <= MaxIdLength))
    ensures !Missing(studentId) && !Missing(firstName) && !Missing(lastName) && !Missing(email)
            && MinIdLength <= |Strip(studentId.value)| <= MaxIdLength
            ==> (r == (false, InvalidEmail) <==> !EmailShaped(email.value))
    ensures r.0 <==> && !Missing(studentId) && !Missing(firstName) && !Missing(lastName)
                     && !Missing(email)
                     && MinIdLength <= |Strip(studentId.value)| <= MaxIdLength
                     && EmailShaped(email.value)
  {
    if Missing(studentId) then (false, IdRequired)
    else if Missing(firstName) then (false, FirstNameRequired)
    else if Missing(lastName) then (false, LastNameRequired)
    else if Missing(email) then (false, EmailRequired)
    else if |Strip(studentId.value)| < MinIdLength || |Strip(studentId.value)| > MaxIdLength then
      (false, IdLength)
    else if !('@' in Strip(email.value)) || !('.' in Strip(email.value)) then (false, InvalidEmail)
    else (true, "")
  }

  /** Whitespace around an already-present value never changes the verdict
      of the gate: it judges every field by its trimmed text. */
  lemma GateIgnoresPadding(studentId: string, firstName: string, lastName: string, email: string)
    ensures ValidateStudentData(Some(Strip(studentId)), Some(Strip(firstName)),
                                Some(Strip(lastName)), Some(Strip(email)))
         == ValidateStudentData(Some(studentId), Some(firstName), Some(lastName), Some(email))
  {
    StripIdempotent(studentId);
    StripIdempotent(firstName);
    StripIdempotent(lastName);
    StripIdempotent(email);
  }

  // ---------------------------------------------------------------------------
  // Normalisation
  // ---------------------------------------------------------------------------

  /** `x.strip() if x else None`: absent and empty become `None`; anything
      else is trimmed, so a blank value becomes the empty string. */
  function CleanOptional(o: Option<string>): (r: Option<string>)
    ensures r.None? <==> o.None? || o.value == []
    ensures r.Some? ==> r.value == Strip(o.value)
  {
    if o.None? || o.value == [] then None else Some(Strip(o.value))
  }

  /** The values `create_student` stores: names and student ID trimmed, the
      e-mail lower-cased then trimmed, phone and address cleaned, the birth
      date as given. */
  function Normalize(input: StudentInput): (n: StudentInput)
    ensures n.studentId == Strip(input.studentId)
    ensures n.firstName == Strip(input.firstName) && n.lastName == Strip(input.lastName)
    ensures n.email == Strip(Lower(input.email))
    ensures n.phone == CleanOptional(input.phone) && n.address == CleanOptional(input.address)
    ensures n.dateOfBirth == input.dateOfBirth
  {
    StudentInput(
      Strip(input.studentId),
      Strip(input.firstName),
      Strip(input.lastName),
      Strip(Lower(input.email)),
      CleanOptional(input.phone),
      input.dateOfBirth,
      CleanOptional(input.address))
  }

  /** An optional value that is present, not empty, and blank: the one kind
      of value normalisation does not map to a fixed point. */
  predicate BlankButPresent(o: Option<string>)
  {
    o.Some? && o.value != [] && IsBlank(o.value)
  }

  /** Normalising normalised values changes nothing, unless the phone or the
      address was blank but not empty: such a value is stored as `""` and a
      second pass would turn it into `None`. */
  lemma NormalizeIdempotent(input: StudentInput)
    ensures Normalize(Normalize(input)) == Normalize(input)
            <==> !BlankButPresent(input.phone) && !BlankButPresent(input.address)
  {
    var n := Normalize(input);
    StripIdempotent(input.studentId);
    StripIdempotent(input.firstName);
    StripIdempotent(input.lastName);
    StripIdempotent(Lower(input.email));
    StripLowerCommute(Strip(Lower(input.email)));
    StripLowerCommute(input.email);
    LowerIdempotent(Strip(input.email));
    assert n.email == Lower(Strip(input.email));
    assert Strip(Lower(n.email)) == n.email;
    if input.phone.Some? && input.phone.value != [] { StripIdempotent(input.phone.value); }
    if input.address.Some? && input.address.value != [] { StripIdempotent(input.address.value); }
  }

  // ---------------------------------------------------------------------------
  // The relational create
  // ---------------------------------------------------------------------------

  function IdConflict(raw: string): string
  {
    "Student with ID '" + raw + "' already exists"
  }

  function EmailConflict(raw: string): string
  {
    "Student with email '" + raw + "' already exists"
  }

  /** The two conflict messages can never be confused with each other. */
  lemma ConflictMessagesDiffer(a: string, b: string)
    ensures IdConflict(a) != EmailConflict(b)
  {
    assert IdConflict(a)[13] == 'I';
    assert EmailConflict(b)[13] == 'e';
  }

  predicate IdTaken(rows: seq<Student>, studentId: string)
  {
    exists i :: 0 <= i < |rows| && rows[i].studentId == studentId
  }

  predicate EmailTaken(rows: seq<Student>, email: string)
  {
    exists i :: 0 <= i < |rows| && rows[i].email == email
  }

  /** `create_student(...)` on the relational store. The row is built from the
      normalised values with `enrollment_date` = `today`; committing it clashes
      with the unique `student_id` column first, then with `email`; a clash is
      rolled back and reported with the caller's raw text. */
  function CreateStudent(rows: seq<Student>, input: StudentInput, today: CalendarDate,
                         now: Timestamp): (r: Attempt<seq<Student>, Student>)
    ensures r.result.Failure? ==> r.state == rows
    ensures r.result.Success? ==> r.state == rows + [r.result.value]
    ensures r.result == Failure(IdConflict(input.studentId))
            <==> IdTaken(rows, Strip(input.studentId))
    ensures r.result == Failure(EmailConflict(input.email))
            <==> !IdTaken(rows, Strip(input.studentId)) && EmailTaken(rows, Strip(Lower(input.email)))
    ensures r.result.Success? ==>
              && r.result.value.Fields() == Normalize(input)
              && r.result.value.enrollmentDate == today
              && r.result.value.createdAt == now && r.result.value.updatedAt == now
              && forall i :: 0 <= i < |rows| ==> rows[i].id != r.result.value.id
  {
    var n := Normalize(input);
    ConflictMessagesDiffer(input.studentId, input.email);
    if IdTaken(rows, n.studentId) then
      Attempt(rows, Failure(IdConflict(input.studentId)))
    else if EmailTaken(rows, n.email) then
      Attempt(rows, Failure(EmailConflict(input.email)))
    else
      var row := Student(NextId(rows), n.studentId, n.firstName, n.lastName, n.email,
                         n.phone, n.dateOfBirth, n.address, today, now, now);
      Attempt(rows + [row], Success(row))
  }

  /** A create either fails with one of the two conflicts or succeeds. */
  lemma CreateOutcomes(rows: seq<Student>, input: StudentInput, today: CalendarDate, now: Timestamp)
    ensures var r := CreateStudent(rows, input, today, now);
            r.result.Success? || r.result == Failure(IdConflict(input.studentId))
            || r.result == Failure(EmailConflict(input.email))
  {
  }

  /** The unique columns stay unique: a successful create adds a row whose
      student ID, e-mail and id are all new. */
  lemma CreateKeepsKeysUnique(rows: seq<Student>, input: StudentInput, today: CalendarDate,
                              now: Timestamp)
    requires UniqueKeys(rows)
    ensures UniqueKeys(CreateStudent(rows, input, today, now).state)
  {
    var r := CreateStudent(rows, input, today, now);
    if r.result.Success? {
      var s := r.state;
      var row := r.result.value;
      forall i, j | 0 <= i < j < |s|
        ensures s[i].id != s[j].id && s[i].studentId != s[j].studentId && s[i].email != s[j].email
      {
        if j == |rows| {
          assert s[j] == row && s[i] == rows[i];
          assert !IdTaken(rows, row.studentId);
          assert !EmailTaken(rows, row.email);
        } else {
          assert s[i] == rows[i] && s[j] == rows[j];
        }
      }
    }
  }

  /** Once a student is created, any later create whose trimmed student ID
      is the same fails with the ID conflict, whatever its other values. */
  lemma ResubmittedIdConflicts(rows: seq<Student>, first: StudentInput, again: StudentInput,
                               today: CalendarDate, later: CalendarDate, now: Timestamp,
                               now2: Timestamp)
    requires CreateStudent(rows, first, today, now).result.Success?
    requires Strip(again.studentId) == Strip(first.studentId)
    ensures var rows' := CreateStudent(rows, first, today, now).state;
            CreateStudent(rows', again, later, now2)
            == Attempt(rows', Failure(IdConflict(again.studentId)))
  {
    var r := CreateStudent(rows, first, today, now);
    assert r.state[|rows|] == r.result.value;
    assert IdTaken(r.state, Strip(again.studentId));
  }

  /** Once a student is created, a later create with a new student ID and
      the same e-mail in any letter case or padding fails with the e-mail
      conflict. */
  lemma ResubmittedEmailConflicts(rows: seq<Student>, first: StudentInput, again: StudentInput,
                                  today: CalendarDate, later: CalendarDate, now: Timestamp,
                                  now2: Timestamp)
    requires CreateStudent(rows, first, today, now).result.Success?
    requires Strip(Lower(again.email)) == Strip(Lower(first.email))
    requires !IdTaken(CreateStudent(rows, first, today, now).state, Strip(again.studentId))
    ensures var rows' := CreateStudent(rows, first, today, now).state;
            CreateStudent(rows', again, later, now2)
            == Attempt(rows', Failure(EmailConflict(again.email)))
  {
    var r := CreateStudent(rows, first, today, now);
    assert r.state[|rows|] == r.result.value;
    assert EmailTaken(r.state, Strip(Lower(again.email)));
  }

  /** A blank but present address or phone is stored as the empty string,
      not as `None`. */
  lemma BlankOptionalStoredEmpty(o: Option<string>)
    requires BlankButPresent(o)
    ensures CleanOptional(o) == Some("")
  {
  }
}

=== FILE: scenarios.dfy ===
/** Concrete cases from the repository's unit tests, stated against the
    model. Several of them show where a test expects something the code does
    not do: the verdicts below are the code's.
 */
module Scenarios {
  import opened Wrappers
  import opened Text
  import opened Dates
  import opened Models
  import opened Repository
  import opened StudentService

  /** "1995-12-25" is accepted and rendered back unchanged. */
  lemma ChristmasBirthDate()
    ensures ParseDateOfBirth("1995-12-25") == Success(Date(1995, 12, 25))
    ensures DateValue(Some(Date(1995, 12, 25))) == Str("1995-12-25")
  {
    var d: CalendarDate := Date(1995, 12, 25);
    assert Pad(1995, 4) == "1995";
    assert Pad(12, 2) == "12";
    assert Pad(25, 2) == "25";
    assert IsoFormat(d) == "1995-12-25";
    ParseDateOfBirthExactly("1995-12-25", d);
  }

  /** A month 13, a 30th of February, a two-digit year, slashes and free
      text are all refused with the format message. */
  lemma MalformedBirthDates()
    ensures ParseDateOfBirth("2000-13-01") == Failure(InvalidDateFormat)
    ensures ParseDateOfBirth("2000-02-30") == Failure(InvalidDateFormat)
    ensures ParseDateOfBirth("00-01-01") == Failure(InvalidDateFormat)
    ensures ParseDateOfBirth("2000/01/01") == Failure(InvalidDateFormat)
    ensures ParseDateOfBirth("invalid-date") == Failure(InvalidDateFormat)
  {
    var s := "2000-13-01";
    assert s[5..7] == "13" && ValueOf("13") == 13;
    var t := "2000-02-30";
    assert t[5..7] == "02" && ValueOf("02") == 2;
    assert t[8..] == "30" && ValueOf("30") == 30;
    assert "2000/01/01"[4] == '/';
  }

  /** On 10 October 2026: a birth date in 2050 is in the future; 1 January
      2010 is sixteen years back and passes, although the test expects it
      to be refused as too young (it was written for a clock in 2024);
      1 January 1900 is over a hundred years back. */
  lemma AgeCasesOnTenOctober2026()
    ensures ValidateAge(Some(Date(2050, 1, 1)), Date(2026, 10, 10)) == Fail(FutureBirthDate)
    ensures ValidateAge(Some(Date(2010, 1, 1)), Date(2026, 10, 10)) == Pass
    ensures ValidateAge(Some(Date(1900, 1, 1)), Date(2026, 10, 10)) == Fail(InvalidBirthDate)
  {
  }

  /** With a clock in 2024, the same birth date is that of a fifteen-year-old. */
  lemma TooYoungIn2024()
    ensures ValidateAge(Some(Date(2010, 1, 1)), Date(2024, 6, 1)) == Fail(TooYoung)
  {
  }

  /** A text with non-blank ends is its own strip, and not blank. */
  lemma Trimmed(p: string)
    requires p != [] && !IsSpace(p[0]) && !IsSpace(p[|p| - 1])
    ensures Strip(p) == p && !IsBlank(p)
  {
    StripPadded([], p, []);
    assert [] + p + [] == p;
  }

  /** `+1-555-0111`, which the tests treat as valid, holds eight digits and
      is refused. */
  lemma ShortTestPhoneRefused()
    ensures ValidatePhoneFormat(Some("+1-555-0111")) == Fail(PhoneDigitCount)
  {
    var p := "+1-555-0111";
    Trimmed(p);
    ShortTestPhoneChars();
    ShortTestPhoneDigits();
  }

  lemma ShortTestPhoneChars()
    ensures AllPhoneChars("+1-555-0111")
  {
  }

  lemma ShortTestPhoneDigits()
    ensures CountDigits("+1-555-0111") == 8
  {
    var p := "+1-555-0111";
    assert p == "+1-" + ("555-" + "0111");
    CountDigitsAppend("+1-", "555-" + "0111");
    CountDigitsAppend("555-", "0111");
    CountAllDigits("0111");
    assert "555-" == "555" + "-";
    CountDigitsAppend("555", "-");
    CountAllDigits("555");
    assert "+1-" == "+" + "1-";
    CountDigitsAppend("+", "1-");
  }

  /** `555.123.4567`, which the tests treat as valid, holds dots and is
      refused. */
  lemma DottedTestPhoneRefused()
    ensures ValidatePhoneFormat(Some("555.123.4567")) == Fail(PhoneInvalidChars)
  {
    var q := "555.123.4567";
    Trimmed(q);
    assert !IsPhoneChar(q[3]);
  }

  /** The punctuated form `(555) 123-4567` is accepted. */
  lemma PunctuatedPhoneAccepted()
    ensures ValidatePhoneFormat(Some("(555) 123-4567")) == Pass
  {
    var p := "(555) 123-4567";
    Trimmed(p);
    PunctuatedPhoneChars();
    PunctuatedPhoneDigits();
  }

  lemma PunctuatedPhoneChars()
    ensures AllPhoneChars("(555) 123-4567")
  {
  }

  lemma PunctuatedPhoneDigits()
    ensures CountDigits("(555) 123-4567") == 10
  {
    var a := "(555) ";
    var b := "123-4567";
    assert a + b == "(555) 123-4567";
    CountDigitsAppend(a, b);
    assert a == "(" + "555" + ") ";
    CountDigitsAppend("(" + "555", ") ");
    CountDigitsAppend("(", "555");
    CountAllDigits("555");
    assert b == "123" + "-" + "4567";
    CountDigitsAppend("123" + "-", "4567");
    CountDigitsAppend("123", "-");
    CountAllDigits("123");
    CountAllDigits("4567");
  }

  /** A bare eleven-digit number, an absent phone and a blank one are
      accepted. */
  lemma PlainPhonesAccepted()
    ensures ValidatePhoneFormat(Some("15551234567")) == Pass
    ensures ValidatePhoneFormat(Some("   ")) == Pass
    ensures ValidatePhoneFormat(None) == Pass
  {
    DigitsOnlyPhone("15551234567");
    assert AllSpace("   ");
  }

  /** A whitespace-only address is stored as the empty string, where the
      test expects `None`. */
  lemma BlankAddressStoredEmpty()
    ensures Normalize(StudentInput("S001", "Ann", "Lee", "a@x.io", None, None, Some("   "))).address
            == Some("")
  {
    assert BlankButPresent(Some("   ")) by {
      assert AllSpace("   ");
    }
    BlankOptionalStoredEmpty(Some("   "));
  }

  /** The gate reports the first missing field, in the order the tests
      list them: a blank student ID first ... */
  lemma BlankIdReported()
    ensures ValidateStudentData(Some("   "), Some("Valid"), Some("Student"), Some("valid@example.com"))
            == (false, IdRequired)
  {
    assert AllSpace("   ");
  }

  /** ... then a blank first name ... */
  lemma BlankFirstNameReported()
    ensures ValidateStudentData(Some("VALID001"), Some("   "), Some("Student"), Some("valid@example.com"))
            == (false, FirstNameRequired)
  {
    assert AllSpace("   ");
    Trimmed("VALID001");
  }

  /** ... then a blank last name ... */
  lemma BlankLastNameReported()
    ensures ValidateStudentData(Some("VALID001"), Some("Valid"), Some("   "), Some("valid@example.com"))
            == (false, LastNameRequired)
  {
    assert AllSpace("   ");
    Trimmed("VALID001");
    Trimmed("Valid");
  }

  /** ... then a blank e-mail. */
  lemma BlankEmailReported()
    ensures ValidateStudentData(Some("VALID001"), Some("Valid"), Some("Student"), Some("   "))
            == (false, EmailRequired)
  {
    assert AllSpace("   ");
    Trimmed("VALID001");
    Trimmed("Valid");
    Trimmed("Student");
  }

  /** The required fields of the minimal test case pass the gate. */
  lemma MinimalInputPassesGate()
    ensures ValidateStudentData(Some("SVC002"), Some("Minimal"), Some("Service"),
                                Some("minimal.service@example.com")).0
  {
    MinimalFieldsPresent();
    MinimalEmailShaped();
  }

  lemma MinimalFieldsPresent()
    ensures !Missing(Some("SVC002")) && |Strip("SVC002")| == 6
    ensures !Missing(Some("Minimal")) && !Missing(Some("Service"))
  {
    Trimmed("SVC002");
    Trimmed("Minimal");
    Trimmed("Service");
  }

  lemma MinimalEmailShaped()
    ensures !Missing(Some("minimal.service@example.com"))
    ensures EmailShaped("minimal.service@example.com")
  {
    var email := "minimal.service@example.com";
    Trimmed(email);
    assert email[15] == '@' && email[7] == '.';
  }

  /** Only the required fields: the student is created, and the optional
      columns of the returned dictionary are `null`. */
  lemma MinimalStudentCreated(today: CalendarDate, now: Timestamp)
    ensures var input := ServiceInput("SVC002", "Minimal", "Service", "minimal.service@example.com",
                                      None, None, None);
            var r := CreateNewStudent([], input, today, now);
            && r.result.Success?
            && r.result.value.student["phone"] == Null
            && r.result.value.student["date_of_birth"] == Null
            && r.result.value.student["address"] == Null
  {
    var input := ServiceInput("SVC002", "Minimal", "Service", "minimal.service@example.com",
                              None, None, None);
    MinimalInputPassesGate();
    assert GateVerdict(input).0;
    assert ParseOptionalDateOfBirth(None) == Success(None);
    var args := CreateArgs(input, None);
    var created := CreateStudent([], args, today, now);
    assert !IdTaken([], Strip(args.studentId)) && !EmailTaken([], Strip(Lower(args.email)));
    assert created.result.Success?;
    var row := created.result.value;
    assert row.phone == None && row.dateOfBirth == None && row.address == None;
    var r := CreateNewStudent([], input, today, now);
    assert r.state == created.state && r.state[0] == row;
  }
}

=== FILE: service.dfy ===
/** `StudentService`: the business checks run before a student is stored
    (birth-date parsing, the age rule, the phone rule) and `create_new_student`,
    which runs the gate, the checks and the relational create in a fixed order
    and stops at the first failure. The clock is the parameter `today`.
 */
module StudentService {
  import opened Wrappers
  import opened Text
  import opened Dates
  import opened Models
  import opened Repository

  const InvalidDateFormat: string := "Invalid date format. Use YYYY-MM-DD format"
  const FutureBirthDate: string := "Date of birth cannot be in the future"
  const TooYoung: string := "Student must be at least 16 years old"
  const InvalidBirthDate: string := "Invalid date of birth"
  const PhoneInvalidChars: string := "Phone number contains invalid characters"
  const PhoneDigitCount: string := "Phone number must have between 10-15 digits"

  const MinAge: int := 16
  const MaxAge: int := 100
  const MinPhoneDigits: nat := 10
  const MaxPhoneDigits: nat := 15

  // ---------------------------------------------------------------------------
  // Date of birth
  // ---------------------------------------------------------------------------

  /** `_parse_date_of_birth`: the date a `YYYY-MM-DD` text names, or the
      format message. */
  function ParseDateOfBirth(s: string): (r: Result<CalendarDate, string>)
    ensures r.Failure? ==> r.error == InvalidDateFormat
    ensures r.Success? ==> IsoFormat(r.value) == s
  {
    match ParseIso(s)
    case Some(d) => Success(d)
    case None => Failure(InvalidDateFormat)
  }

  /** The texts the parser accepts are exactly the ISO renderings of dates;
      in particular a parsed date, rendered again, is the text it came from. */
  lemma ParseDateOfBirthExactly(s: string, d: CalendarDate)
    ensures ParseDateOfBirth(s) == Success(d) <==> IsoFormat(d) == s
  {
    ParseIsoExactly(s, d);
  }

  // ---------------------------------------------------------------------------
  // The age rule
  // ---------------------------------------------------------------------------

  /** Whole years from `dob` to `today`: the difference of the years, one
      less when this year's birthday is still to come. */
  function AgeOn(dob: Date, today: Date): (a: int)
    ensures a == today.year - dob.year || a == today.year - dob.year - 1
    ensures a == today.year - dob.year <==> !Before(today, Date(today.year, dob.month, dob.day))
  {
    today.year - dob.year
    - (if today.month < dob.month || (today.month == dob.month && today.day < dob.day) then 1 else 0)
  }

  /** Today's month and day, `n` years back (not necessarily an existing
      date: the 29th of February may fall in a common year). */
  function YearsBefore(today: Date, n: int): Date
  {
    Date(today.year - n, today.month, today.day)
  }

  /** Someone is at least `n` years old exactly when they were born on or
      before today's month and day `n` years ago. */
  lemma AgeAtLeast(dob: Date, today: Date, n: int)
    ensures AgeOn(dob, today) >= n <==> !Before(YearsBefore(today, n), dob)
  {
  }

  /** `_validate_age`: nothing to check without a birth date; a birth date
      after today is refused before any age is computed; then the age must
      lie between 16 and 100 inclusive. Stated by anniversaries: the check
      passes exactly for birth dates after today's date 101 years ago and on
      or before today's date 16 years ago. */
  function ValidateAge(dob: Option<CalendarDate>, today: CalendarDate): (r: Outcome<string>)
    ensures dob.None? ==> r == Pass
    ensures dob.Some? && Before(today, dob.value) ==> r == Fail(FutureBirthDate)
    ensures dob.Some? && !Before(today, dob.value) ==>
              (r == Fail(TooYoung) <==> Before(YearsBefore(today, MinAge), dob.value))
    ensures dob.Some? && !Before(today, dob.value) ==>
              (r == Fail(InvalidBirthDate) <==> !Before(YearsBefore(today, MaxAge + 1), dob.value))
    ensures r == Pass <==> dob.None? || (&& Before(YearsBefore(today, MaxAge + 1), dob.value)
                                         && !Before(YearsBefore(today, MinAge), dob.value))
  {
    match dob
    case None => Pass
    case Some(d) =>
      if Before(today, d) then Fail(FutureBirthDate)
      else
        var age := AgeOn(d, today);
        AgeAtLeast(d, today, MinAge);
        AgeAtLeast(d, today, MaxAge + 1);
        if age < MinAge then Fail(TooYoung)
        else if age > MaxAge then Fail(InvalidBirthDate)
        else Pass
  }

  /** The bounds are inclusive: exactly 16 and exactly 100 pass, 15 and 101
      do not. A corollary of the anniversary statement of `ValidateAge`,
      phrased in whole years as the source computes them. */
  lemma AgeBoundaries(dob: CalendarDate, today: CalendarDate)
    requires !Before(today, dob)
    ensures AgeOn(dob, today) == MinAge ==> ValidateAge(Some(dob), today) == Pass
    ensures AgeOn(dob, today) == MaxAge ==> ValidateAge(Some(dob), today) == Pass
    ensures AgeOn(dob, today) == MinAge - 1 ==> ValidateAge(Some(dob), today) == Fail(TooYoung)
    ensures AgeOn(dob, today) == MaxAge + 1
            ==> ValidateAge(Some(dob), today) == Fail(InvalidBirthDate)
  {
  }

  // ---------------------------------------------------------------------------
  // The phone rule
  // ---------------------------------------------------------------------------

  /** The characters a phone number may hold: digits, space, `-`, `(`, `)`, `+`. */
  predicate IsPhoneChar(c: char)
  {
    IsDigit(c) || c == ' ' || c == '-' || c == '(' || c == ')' || c == '+'
  }

  predicate AllPhoneChars(s: string)
  {
    forall k :: 0 <= k < |s| ==> IsPhoneChar(s[k])
  }

  /** The number of decimal digits in `s`. Its value is pinned down by its
      body together with `CountDigitsAppend` and `CountAllDigits`; the
      contract only bounds it. */
  function CountDigits(s: string): (n: nat)
    ensures n <= |s|
  {
    if |s| == 0 then 0
    else CountDigits(s[..|s| - 1]) + (if IsDigit(s[|s| - 1]) then 1 else 0)
  }

  lemma {:induction false} CountDigitsAppend(a: string, b: string)
    ensures CountDigits(a + b) == CountDigits(a) + CountDigits(b)
    decreases |b|
  {
    if |b| == 0 {
      assert a + b == a;
    } else {
      assert (a + b)[..|a + b| - 1] == a + b[..|b| - 1];
      CountDigitsAppend(a, b[..|b| - 1]);
    }
  }

  /** The digits of `s`, in order. */
  function Digits(s: string): (r: string)
    ensures AllDigits(r)
    ensures |r| == CountDigits(s)
    ensures forall c :: IsDigit(c) ==> multiset(r)[c] == multiset(s)[c]
  {
    if |s| == 0 then []
    else
      var last := s[|s| - 1];
      assert s == s[..|s| - 1] + [last];
      Digits(s[..|s| - 1]) + (if IsDigit(last) then [last] else [])
  }

  /** Filtering distributes over concatenation, so the digits keep the order
      they have in the text. */
  lemma {:induction false} DigitsAppend(a: string, b: string)
    ensures Digits(a + b) == Digits(a) + Digits(b)
    decreases |b|
  {
    if |b| == 0 {
      assert a + b == a;
    } else {
      assert (a + b)[..|a + b| - 1] == a + b[..|b| - 1];
      DigitsAppend(a, b[..|b| - 1]);
    }
  }

  /** `''.join(c for c in s if c.isdigit())` as a loop: the digits of `s`, in
      order; there are `CountDigits(s)` of them. */
  method DigitsOnly(s: string) returns (d: string)
    ensures d == Digits(s)
    ensures AllDigits(d)
    ensures |d| == CountDigits(s)
  {
    d := [];
    var i := 0;
    while i < |s|
      invariant 0 <= i <= |s|
      invariant d == Digits(s[..i])
    {
      assert s[..i + 1][..i] == s[..i];
      if IsDigit(s[i]) {
        d := d + [s[i]];
      }
      i := i + 1;
    }
    assert s[..i] == s;
  }

  /** `_validate_phone_format`: nothing to check when the phone is absent or
      blank; otherwise the trimmed text must consist of phone characters
      (checked first) and hold 10 to 15 digits. */
  function ValidatePhoneFormat(phone: Option<string>): (r: Outcome<string>)
    ensures phone.None? || IsBlank(phone.value) ==> r == Pass
    ensures phone.Some? && !IsBlank(phone.value) && !AllPhoneChars(Strip(phone.value))
            ==> r == Fail(PhoneInvalidChars)
    ensures phone.Some? && !IsBlank(phone.value) && AllPhoneChars(Strip(phone.value))
            ==> (r == Pass <==> MinPhoneDigits <= CountDigits(Strip(phone.value)) <= MaxPhoneDigits)
    ensures phone.Some? && !IsBlank(phone.value) && AllPhoneChars(Strip(phone.value))
            && !(MinPhoneDigits <= CountDigits(Strip(phone.value)) <= MaxPhoneDigits)
            ==> r == Fail(PhoneDigitCount)
    ensures r.Fail? ==> r.error == PhoneInvalidChars || r.error == PhoneDigitCount
  {
    if phone.None? || IsBlank(phone.value) then Pass
    else
      var p := Strip(phone.value);
      if !AllPhoneChars(p) then Fail(PhoneInvalidChars)
      else
        var n := CountDigits(p);
        if n < MinPhoneDigits || n > MaxPhoneDigits then Fail(PhoneDigitCount) else Pass
  }

  /** A non-digit inserted anywhere adds no digit. */
  lemma CountDigitsInsert(a: string, c: char, b: string)
    requires !IsDigit(c)
    ensures CountDigits(a + [c] + b) == CountDigits(a + b)
  {
    assert a + [c] + b == a + ([c] + b);
    CountDigitsAppend(a, [c] + b);
    CountDigitsAppend([c], b);
    CountDigitsAppend(a, b);
    assert [c][..0] == [];
  }

  /** A phone character inserted anywhere keeps the text within the phone
      alphabet, or outside it. */
  lemma PhoneCharsInsert(a: string, c: char, b: string)
    requires IsPhoneChar(c)
    ensures AllPhoneChars(a + [c] + b) <==> AllPhoneChars(a + b)
  {
    var s := a + [c] + b;
    var t := a + b;
    if AllPhoneChars(t) {
      forall k | 0 <= k < |s| ensures IsPhoneChar(s[k]) {
        if k < |a| { assert s[k] == t[k]; }
        else if k > |a| { assert s[k] == t[k - 1]; }
      }
    }
    if AllPhoneChars(s) {
      forall k | 0 <= k < |t| ensures IsPhoneChar(t[k]) {
        if k < |a| { assert s[k] == t[k]; }
        else { assert s[k + 1] == t[k]; }
      }
    }
  }

  /** A text that is its own strip stays so when a non-space character is
      inserted into it. */
  lemma StrippedInsert(a: string, c: char, b: string)
    requires !IsSpace(c)
    requires Strip(a + b) == a + b
    ensures Strip(a + [c] + b) == a + [c] + b
  {
    var s := a + [c] + b;
    var t := a + b;
    if a == [] { assert s[0] == c; } else { assert s[0] == t[0]; }
    if b == [] { assert s[|s| - 1] == c; } else { assert s[|s| - 1] == t[|t| - 1]; }
    StripPadded([], s, []);
    assert [] + s + [] == s;
  }

  /** Punctuation does not count: inserting a `-`, `(`, `)` or `+` into a
      trimmed, non-empty phone number never changes the verdict. */
  lemma PunctuationIgnored(a: string, c: char, b: string)
    requires c == '-' || c == '(' || c == ')' || c == '+'
    requires a + b != [] && Strip(a + b) == a + b
    ensures ValidatePhoneFormat(Some(a + [c] + b)) == ValidatePhoneFormat(Some(a + b))
  {
    StrippedInsert(a, c, b);
    CountDigitsInsert(a, c, b);
    PhoneCharsInsert(a, c, b);
  }

  /** For a number written with digits only, the rule is the 10 to 15
      digit bound on its length. */
  lemma {:induction false} DigitsOnlyPhone(s: string)
    requires s != [] && AllDigits(s)
    ensures ValidatePhoneFormat(Some(s)) == Pass <==> MinPhoneDigits <= |s| <= MaxPhoneDigits
  {
    StripPadded([], s, []);
    assert [] + s + [] == s;
    CountAllDigits(s);
  }

  lemma {:induction false} CountAllDigits(s: string)
    requires AllDigits(s)
    ensures CountDigits(s) == |s|
  {
    if |s| > 0 {
      CountAllDigits(s[..|s| - 1]);
    }
  }

  // ---------------------------------------------------------------------------
  // create_new_student
  // ---------------------------------------------------------------------------

  /** The arguments of `create_new_student`: the birth date is still text. */
  datatype ServiceInput = ServiceInput(
    studentId: string,
    firstName: string,
    lastName: string,
    email: string,
    phone: Option<string>,
    dateOfBirth: Option<string>,
    address: Option<string>)

  /** The dictionary `create_new_student` returns on success. */
  datatype Response = Response(success: bool, message: string, student: map<string, Value>)

  /** `if date_of_birth_str: parse`: an absent or empty text means no date. */
  function ParseOptionalDateOfBirth(text: Option<string>): (r: Result<Option<CalendarDate>, string>)
    ensures text.None? || text.value == [] ==> r == Success(None)
    ensures text.Some? && text.value != [] ==>
              (r.Success? <==> ParseDateOfBirth(text.value).Success?)
    ensures r.Success? && r.value.Some? ==> ParseDateOfBirth(text.value) == Success(r.value.value)
    ensures text.Some? && text.value != [] && r.Success?
            ==> r.value.Some? && IsoFormat(r.value.value) == text.value
    ensures r.Failure? ==> r.error == InvalidDateFormat
  {
    if text.None? || text.value == [] then Success(None)
    else
      match ParseDateOfBirth(text.value)
      case Success(d) => Success(Some(d))
      case Failure(e) => Failure(e)
  }

  function GateVerdict(input: ServiceInput): (bool, string)
  {
    ValidateStudentData(Some(input.studentId), Some(input.firstName), Some(input.lastName),
                        Some(input.email))
  }

  function CreatedMessage(fullName: string): string
  {
    "Student " + fullName + " created successfully"
  }

  /** `create_new_student`: the gate, then the birth-date parse (only for a
      non-empty text), the age rule, the phone rule and the relational
      create; the first failure is returned and the table is left as it
      was. On success the table has gained the new row and the response
      names the student and carries the row's dictionary. */
  function CreateNewStudent(rows: seq<Student>, input: ServiceInput, today: CalendarDate,
                            now: Timestamp): (r: Attempt<seq<Student>, Response>)
    ensures r.result.Failure? ==> r.state == rows
    ensures !GateVerdict(input).0 ==> r.result == Failure(GateVerdict(input).1)
    ensures GateVerdict(input).0 && ParseOptionalDateOfBirth(input.dateOfBirth).Failure?
            ==> r.result == Failure(InvalidDateFormat)
    ensures GateVerdict(input).0 && ParseOptionalDateOfBirth(input.dateOfBirth).Success?
            && ValidateAge(ParseOptionalDateOfBirth(input.dateOfBirth).value, today).Fail?
            ==> r.result == Failure(ValidateAge(ParseOptionalDateOfBirth(input.dateOfBirth).value, today).error)
    ensures GateVerdict(input).0 && ParseOptionalDateOfBirth(input.dateOfBirth).Success?
            && ValidateAge(ParseOptionalDateOfBirth(input.dateOfBirth).value, today).Pass?
            && ValidatePhoneFormat(input.phone).Fail?
            ==> r.result == Failure(ValidatePhoneFormat(input.phone).error)
    ensures GateVerdict(input).0 && ParseOptionalDateOfBirth(input.dateOfBirth).Success?
            && ValidateAge(ParseOptionalDateOfBirth(input.dateOfBirth).value, today).Pass?
            && ValidatePhoneFormat(input.phone).Pass?
            ==> var created := CreateStudent(rows, CreateArgs(input, ParseOptionalDateOfBirth(input.dateOfBirth).value),
                                             today, now);
                && (r.result.Failure? <==> created.result.Failure?)
                && (created.result.Failure? ==> r.result.error == created.result.error)
                && (created.result.Success? ==> r.state == created.state)
    ensures r.result.Success? ==>
              && |r.state| == |rows| + 1
              && r.state[..|rows|] == rows
              && r.result.value.success
              && r.result.value.message == CreatedMessage(r.state[|rows|].FullName())
              && r.result.value.student == r.state[|rows|].ToDict()
  {
    var gate := GateVerdict(input);
    if !gate.0 then Attempt(rows, Failure(gate.1))
    else
      match ParseOptionalDateOfBirth(input.dateOfBirth)
      case Failure(e) => Attempt(rows, Failure(e))
      case Success(dob) =>
        match ValidateAge(dob, today)
        case Fail(e) => Attempt(rows, Failure(e))
        case Pass =>
          match ValidatePhoneFormat(input.phone)
          case Fail(e) => Attempt(rows, Failure(e))
          case Pass =>
            var created := CreateStudent(rows, CreateArgs(input, dob), today, now);
            match created.result
            case Failure(e) => Attempt(rows, Failure(e))
            case Success(row) =>
              assert created.state[|rows|] == row && created.state[..|rows|] == rows;
              Attempt(created.state,
                      Success(Response(true, CreatedMessage(row.FullName()), row.ToDict())))
  }

  // ---------------------------------------------------------------------------
  // The table invariant the service maintains
  // ---------------------------------------------------------------------------

  /** A stored row whose own values pass every check the service runs, the
      age being judged on its enrollment date. */
  predicate Admissible(s: Student)
  {
    && ValidateStudentData(Some(s.studentId), Some(s.firstName), Some(s.lastName), Some(s.email)).0
    && ValidateAge(s.dateOfBirth, s.enrollmentDate) == Pass
    && ValidatePhoneFormat(s.phone) == Pass
  }

  /** Every row is admissible, and the unique columns and ids are unique. */
  predicate WellFormedTable(rows: seq<Student>)
  {
    UniqueKeys(rows) && forall i :: 0 <= i < |rows| ==> Admissible(rows[i])
  }

  /** The arguments `create_new_student` hands to the relational create. */
  function CreateArgs(input: ServiceInput, dob: Option<CalendarDate>): StudentInput
  {
    StudentInput(input.studentId, input.firstName, input.lastName, input.email,
                 input.phone, dob, input.address)
  }

  /** A successful `create_new_student` passed every stage and is the
      relational create of its arguments. */
  lemma SuccessPath(rows: seq<Student>, input: ServiceInput, today: CalendarDate, now: Timestamp)
    requires CreateNewStudent(rows, input, today, now).result.Success?
    ensures GateVerdict(input).0
    ensures ParseOptionalDateOfBirth(input.dateOfBirth).Success?
    ensures var dob := ParseOptionalDateOfBirth(input.dateOfBirth).value;
            var created := CreateStudent(rows, CreateArgs(input, dob), today, now);
            && ValidateAge(dob, today) == Pass
            && ValidatePhoneFormat(input.phone) == Pass
            && created.result.Success?
            && CreateNewStudent(rows, input, today, now).state == created.state
  {
  }

  /** The repository's conflict reaches the caller unchanged: submitting the
      same student again on the same day fails with the ID conflict, quoting
      the caller's text, and leaves the table as it was. */
  lemma DuplicatePropagates(rows: seq<Student>, input: ServiceInput, today: CalendarDate,
                            now: Timestamp, now2: Timestamp)
    requires CreateNewStudent(rows, input, today, now).result.Success?
    ensures var rows' := CreateNewStudent(rows, input, today, now).state;
            CreateNewStudent(rows', input, today, now2)
            == Attempt(rows', Failure(IdConflict(input.studentId)))
  {
    SuccessPath(rows, input, today, now);
    var dob := ParseOptionalDateOfBirth(input.dateOfBirth).value;
    var args := CreateArgs(input, dob);
    ResubmittedIdConflicts(rows, args, args, today, today, now, now2);
  }

  /** Values that pass the gate still pass it once normalised. */
  lemma GateHoldsAfterNormalize(studentId: string, firstName: string, lastName: string,
                                email: string)
    requires ValidateStudentData(Some(studentId), Some(firstName), Some(lastName), Some(email)).0
    ensures ValidateStudentData(Some(Strip(studentId)), Some(Strip(firstName)),
                                Some(Strip(lastName)), Some(Strip(Lower(email)))).0
  {
    StripIdempotent(studentId);
    StripIdempotent(firstName);
    StripIdempotent(lastName);
    EmailShapeSurvivesNormalize(email);
  }

  /** A present, well-shaped e-mail is still present and well shaped once
      lower-cased and trimmed. */
  lemma EmailShapeSurvivesNormalize(email: string)
    requires !Missing(Some(email)) && EmailShaped(email)
    ensures !Missing(Some(Strip(Lower(email)))) && EmailShaped(Strip(Lower(email)))
  {
    var e := Strip(Lower(email));
    StripLowerCommute(email);
    LowerKeeps(Strip(email), '@');
    LowerKeeps(Strip(email), '.');
    assert '@' in e && '.' in e;
    StripIdempotent(Lower(email));
  }

  /** A phone that passes still passes once cleaned for storage. */
  lemma PhoneHoldsAfterClean(phone: Option<string>)
    requires ValidatePhoneFormat(phone) == Pass
    ensures ValidatePhoneFormat(CleanOptional(phone)) == Pass
  {
    if phone.Some? && phone.value != [] {
      StripIdempotent(phone.value);
    }
  }

  /** The row `create_new_student` adds still passes every check once its
      values have been normalised. */
  lemma CreatedRowAdmissible(rows: seq<Student>, input: ServiceInput, today: CalendarDate,
                             now: Timestamp)
    requires CreateNewStudent(rows, input, today, now).result.Success?
    ensures Admissible(CreateNewStudent(rows, input, today, now).state[|rows|])
  {
    SuccessPath(rows, input, today, now);
    var dob := ParseOptionalDateOfBirth(input.dateOfBirth).value;
    var args := CreateArgs(input, dob);
    var created := CreateStudent(rows, args, today, now);
    var row := created.result.value;
    assert created.state[|rows|] == row;
    assert row.Fields() == Normalize(args);
    GateHoldsAfterNormalize(input.studentId, input.firstName, input.lastName, input.email);
    PhoneHoldsAfterClean(input.phone);
    assert row.phone == CleanOptional(input.phone);
    assert row.dateOfBirth == dob && row.enrollmentDate == today;
  }

  /** `create_new_student` keeps the table well formed. */
  lemma CreateNewStudentKeepsTableWellFormed(rows: seq<Student>, input: ServiceInput,
                                             today: CalendarDate, now: Timestamp)
    requires WellFormedTable(rows)
    ensures WellFormedTable(CreateNewStudent(rows, input, today, now).state)
  {
    var r := CreateNewStudent(rows, input, today, now);
    if r.result.Success? {
      SuccessPath(rows, input, today, now);
      var dob := ParseOptionalDateOfBirth(input.dateOfBirth).value;
      CreateKeepsKeysUnique(rows, CreateArgs(input, dob), today, now);
      CreatedRowAdmissible(rows, input, today, now);
      forall i | 0 <= i < |r.state| ensures Admissible(r.state[i]) {
        if i < |rows| { assert r.state[i] == r.state[..|rows|][i]; }
      }
    }
  }
}

=== FILE: text.dfy ===
/** The Python string operations the student pipeline relies on: `strip()`,
    `lower()`, `upper()`, `startswith`, `split(',')`, `replace` and the
    decimal rendering of numbers (`str(n)`, `%0Nd`).
 */
module Text {

  // ---------------------------------------------------------------------------
  // Whitespace and strip()
  // ---------------------------------------------------------------------------

  /** Python's `str.isspace()` for one character: the code points that
      `str.strip()` with no argument removes. */
  predicate IsSpace(c: char)
  {
    var n := c as int;
    n == 0x20 || 0x09 <= n <= 0x0D || 0x1C <= n <= 0x1F || n == 0x85 || n == 0xA0
    || n == 0x1680 || 0x2000 <= n <= 0x200A || n == 0x2028 || n == 0x2029
    || n == 0x202F || n == 0x205F || n == 0x3000
  }

  predicate AllSpace(s: string)
  {
    forall k :: 0 <= k < |s| ==> IsSpace(s[k])
  }

  /** `s[i..j]` is what is left of `s` once the leading and trailing
      whitespace is cut off. */
  predicate IsStripBounds(s: string, i: nat, j: nat)
  {
    && i <= j <= |s|
    && (forall m :: 0 <= m < i ==> IsSpace(s[m]))
    && (forall m :: j <= m < |s| ==> IsSpace(s[m]))
    && (i < j ==> !IsSpace(s[i]) && !IsSpace(s[j - 1]))
  }

  /** The first index at or after `i` that does not hold whitespace. */
  function FirstNonSpace(s: string, i: nat): (k: nat)
    requires i <= |s|
    ensures i <= k <= |s|
    ensures forall m :: i <= m < k ==> IsSpace(s[m])
    ensures k < |s| ==> !IsSpace(s[k])
    decreases |s| - i
  {
    if i == |s| || !IsSpace(s[i]) then i else FirstNonSpace(s, i + 1)
  }

  /** The end of the last non-whitespace character at or before `j`. */
  function EndNonSpace(s: string, j: nat): (k: nat)
    requires j <= |s|
    ensures k <= j
    ensures forall m :: k <= m < j ==> IsSpace(s[m])
    ensures 0 < k ==> !IsSpace(s[k - 1])
  {
    if j == 0 || !IsSpace(s[j - 1]) then j else EndNonSpace(s, j - 1)
  }

  /** Python's `s.strip()`. */
  function Strip(s: string): (r: string)
    ensures |r| <= |s|
    ensures r == [] <==> AllSpace(s)
    ensures r != [] ==> !IsSpace(r[0]) && !IsSpace(r[|r| - 1])
  {
    var i := FirstNonSpace(s, 0);
    if i == |s| then []
    else
      var j := EndNonSpace(s, |s|);
      assert !IsSpace(s[i]);
      s[i..j]
  }

  /** A blank string: Python's `not s.strip()`. */
  predicate IsBlank(s: string)
  {
    Strip(s) == []
  }

  /** Whatever cut of `s` satisfies the strip conditions is the result of
      `Strip`: the stripped text is determined by the whitespace layout. */
  lemma StripUnique(s: string, i: nat, j: nat)
    requires IsStripBounds(s, i, j)
    ensures Strip(s) == s[i..j]
  {
    var i0 := FirstNonSpace(s, 0);
    if i < j {
      assert !IsSpace(s[i]);
      assert i0 == i;
      var j0 := EndNonSpace(s, |s|);
      assert !IsSpace(s[j - 1]);
      assert j0 == j;
    } else {
      assert AllSpace(s) by {
        forall m | 0 <= m < |s| ensures IsSpace(s[m]) {
          if m < i { } else { }
        }
      }
    }
  }

  /** Every result of `Strip` is such a cut of its argument. */
  lemma StripIsCut(s: string) returns (i: nat, j: nat)
    ensures IsStripBounds(s, i, j)
    ensures Strip(s) == s[i..j]
  {
    i := FirstNonSpace(s, 0);
    if i == |s| {
      j := i;
    } else {
      j := EndNonSpace(s, |s|);
      assert !IsSpace(s[i]);
    }
  }

  /** Stripping removes exactly the whitespace padding around a text that
      neither starts nor ends with whitespace. */
  lemma StripPadded(a: string, t: string, b: string)
    requires AllSpace(a) && AllSpace(b)
    requires t != [] ==> !IsSpace(t[0]) && !IsSpace(t[|t| - 1])
    ensures Strip(a + t + b) == t
  {
    var s := a + t + b;
    assert IsStripBounds(s, |a|, |a| + |t|) by {
      forall m | 0 <= m < |a| ensures IsSpace(s[m]) { assert s[m] == a[m]; }
      forall m | |a| + |t| <= m < |s| ensures IsSpace(s[m]) { assert s[m] == b[m - |a| - |t|]; }
    }
    StripUnique(s, |a|, |a| + |t|);
    assert s[|a|..|a| + |t|] == t;
  }

  /** `strip()` is idempotent. */
  lemma StripIdempotent(s: string)
    ensures Strip(Strip(s)) == Strip(s)
  {
    StripPadded([], Strip(s), []);
    assert [] + Strip(s) + [] == Strip(s);
  }

  // ---------------------------------------------------------------------------
  // Case mapping (ASCII letters)
  // ---------------------------------------------------------------------------

  predicate IsUpperAscii(c: char) { 'A' <= c <= 'Z' }
  predicate IsLowerAscii(c: char) { 'a' <= c <= 'z' }

  function LowerChar(c: char): char
  {
    if IsUpperAscii(c) then (c as int + 32) as char else c
  }

  /** Upper-casing of one character: the ASCII letters, plus the dotless i
      and the long s, the two characters outside ASCII whose upper case is
      a single ASCII letter. */
  function UpperChar(c: char): char
  {
    if IsLowerAscii(c) then (c as int - 32) as char
    else if c == '\U{0131}' then 'I'
    else if c == '\U{017F}' then 'S'
    else c
  }

  /** Python's `s.lower()`, restricted to ASCII letters. */
  function Lower(s: string): (r: string)
    ensures |r| == |s|
    ensures forall k :: 0 <= k < |s| ==> r[k] == LowerChar(s[k])
  {
    seq(|s|, k requires 0 <= k < |s| => LowerChar(s[k]))
  }

  /** Python's `s.upper()` for characters whose upper case is one character
      (see `UpperChar`). */
  function Upper(s: string): (r: string)
    ensures |r| == |s|
    ensures forall k :: 0 <= k < |s| ==> r[k] == UpperChar(s[k])
  {
    seq(|s|, k requires 0 <= k < |s| => UpperChar(s[k]))
  }

  lemma LowerIdempotent(s: string)
    ensures Lower(Lower(s)) == Lower(s)
  {
  }

  lemma UpperIdempotent(s: string)
    ensures Upper(Upper(s)) == Upper(s)
  {
  }

  /** Lower-casing neither adds nor removes a character that is not a letter. */
  lemma LowerKeeps(s: string, c: char)
    requires !IsUpperAscii(c) && !IsLowerAscii(c)
    ensures c in s <==> c in Lower(s)
  {
    if c in s {
      var k :| 0 <= k < |s| && s[k] == c;
      assert Lower(s)[k] == c;
    }
    if c in Lower(s) {
      var k :| 0 <= k < |s| && Lower(s)[k] == c;
      assert s[k] == c;
    }
  }

  /** `s.lower().strip()` and `s.strip().lower()` agree: case mapping does not
      touch whitespace. */
  lemma StripLowerCommute(s: string)
    ensures Strip(Lower(s)) == Lower(Strip(s))
  {
    var i, j := StripIsCut(s);
    var l := Lower(s);
    assert IsStripBounds(l, i, j) by {
      forall m | 0 <= m < |s| ensures IsSpace(l[m]) == IsSpace(s[m]) { }
    }
    StripUnique(l, i, j);
    assert l[i..j] == Lower(s[i..j]);
  }

  // ---------------------------------------------------------------------------
  // Prefixes, occurrences and str.replace
  // ---------------------------------------------------------------------------

  /** Python's `s.startswith(p)`. */
  predicate StartsWith(s: string, p: string)
  {
    |p| <= |s| && s[..|p|] == p
  }

  predicate OccursAt(s: string, p: string, k: nat)
  {
    k + |p| <= |s| && s[k..k + |p|] == p
  }

  /** Python's `p in s`. */
  predicate Occurs(s: string, p: string)
  {
    exists k: nat | k <= |s| :: OccursAt(s, p, k)
  }

  /** Python's `s.replace(pat, rep)`: every non-overlapping occurrence of
      `pat`, scanning left to right, is replaced by `rep`. */
  function ReplaceAll(s: string, pat: string, rep: string): string
    requires |pat| > 0
    decreases |s|
  {
    if |s| < |pat| then s
    else if s[..|pat|] == pat then rep + ReplaceAll(s[|pat|..], pat, rep)
    else [s[0]] + ReplaceAll(s[1..], pat, rep)
  }

  /** Replacing a pattern that does not occur changes nothing. */
  lemma {:induction false} ReplaceAllAbsent(s: string, pat: string, rep: string)
    requires |pat| > 0
    requires !Occurs(s, pat)
    ensures ReplaceAll(s, pat, rep) == s
    decreases |s|
  {
    if |s| < |pat| {
    } else {
      assert !OccursAt(s, pat, 0);
      assert !Occurs(s[1..], pat) by {
        forall k: nat | k <= |s[1..]| ensures !OccursAt(s[1..], pat, k) {
          assert !OccursAt(s, pat, k + 1);
          if k + |pat| <= |s[1..]| {
            assert s[1..][k..k + |pat|] == s[k + 1..k + 1 + |pat|];
          }
        }
      }
      ReplaceAllAbsent(s[1..], pat, rep);
      assert [s[0]] + s[1..] == s;
    }
  }

  /** When `s` starts with the pattern and the pattern does not recur in the
      rest, `replace` rewrites exactly the prefix. */
  lemma ReplaceLeadingOnly(s: string, pat: string, rep: string)
    requires |pat| > 0
    requires StartsWith(s, pat)
    requires !Occurs(s[|pat|..], pat)
    ensures ReplaceAll(s, pat, rep) == rep + s[|pat|..]
  {
    ReplaceAllAbsent(s[|pat|..], pat, rep);
  }

  /** A prefix in which no occurrence of the pattern starts is copied
      unchanged, and the scan carries on after it. */
  lemma {:induction false} ReplaceAllSkip(a: string, t: string, pat: string, rep: string)
    requires |pat| > 0
    requires forall k: nat :: k < |a| ==> !OccursAt(a + t, pat, k)
    ensures ReplaceAll(a + t, pat, rep) == a + ReplaceAll(t, pat, rep)
    decreases |a|
  {
    if |a| == 0 {
      assert a + t == t;
    } else {
      var s := a + t;
      assert !OccursAt(s, pat, 0);
      assert s[1..] == a[1..] + t;
      forall k: nat | k < |a[1..]| ensures !OccursAt(a[1..] + t, pat, k) {
        assert !OccursAt(s, pat, k + 1);
        if k + |pat| <= |a[1..] + t| {
          assert (a[1..] + t)[k..k + |pat|] == s[k + 1..k + 1 + |pat|];
        }
      }
      ReplaceAllSkip(a[1..], t, pat, rep);
      if |s| < |pat| {
        ReplaceAllAbsent(t, pat, rep);
      } else {
        assert [a[0]] + (a[1..] + ReplaceAll(t, pat, rep)) == a + ReplaceAll(t, pat, rep);
      }
    }
  }

  /** A leading occurrence is replaced and the scan resumes after it. */
  lemma ReplaceAllLeading(pat: string, t: string, rep: string)
    requires |pat| > 0
    ensures ReplaceAll(pat + t, pat, rep) == rep + ReplaceAll(t, pat, rep)
  {
    assert (pat + t)[..|pat|] == pat && (pat + t)[|pat|..] == t;
  }

  /** Both occurrences of a pattern that appears twice are replaced. */
  lemma ReplaceTwice(pat: string, mid: string, tail: string, rep: string)
    requires |pat| > 0
    requires forall k: nat :: k < |mid| ==> !OccursAt(mid + (pat + tail), pat, k)
    requires !Occurs(tail, pat)
    ensures ReplaceAll(pat + (mid + (pat + tail)), pat, rep) == rep + (mid + (rep + tail))
  {
    ReplaceAllLeading(pat, mid + (pat + tail), rep);
    ReplaceAllSkip(mid, pat + tail, pat, rep);
    ReplaceAllLeading(pat, tail, rep);
    ReplaceAllAbsent(tail, pat, rep);
  }

  // ---------------------------------------------------------------------------
  // str.split on one separator character, and its inverse str.join
  // ---------------------------------------------------------------------------

  /** The index of the first occurrence of `c` in `s`. */
  function IndexOf(s: string, c: char): (k: nat)
    requires c in s
    ensures k < |s| && s[k] == c
    ensures forall m :: 0 <= m < k ==> s[m] != c
  {
    if s[0] == c then 0
    else
      assert c in s[1..] by {
        var m :| 0 <= m < |s| && s[m] == c;
        assert s[1..][m - 1] == c;
      }
      1 + IndexOf(s[1..], c)
  }

  /** Python's `sep.join(parts)` for a one-character separator. */
  function Join(parts: seq<string>, sep: char): string
  {
    if |parts| == 0 then []
    else if |parts| == 1 then parts[0]
    else parts[0] + [sep] + Join(parts[1..], sep)
  }

  /** Python's `s.split(sep)` for a one-character separator: the pieces
      between separators, at least one of them; joining them back with the
      separator gives `s`. */
  function Split(s: string, sep: char): (parts: seq<string>)
    ensures |parts| >= 1
    ensures forall i :: 0 <= i < |parts| ==> sep !in parts[i]
    ensures Join(parts, sep) == s
    decreases |s|
  {
    if sep !in s then [s]
    else
      var k := IndexOf(s, sep);
      assert sep !in s[..k] by {
        forall m | 0 <= m < k ensures s[..k][m] != sep { assert s[..k][m] == s[m]; }
      }
      var rest := Split(s[k + 1..], sep);
      var parts := [s[..k]] + rest;
      assert parts[1..] == rest;
      assert s == s[..k] + [sep] + s[k + 1..];
      parts
  }

  /** The number of occurrences of `c` in `s`. */
  function CountChar(s: string, c: char): (n: nat)
    ensures n <= |s|
    ensures n == 0 <==> c !in s
  {
    if s == [] then 0
    else (if s[0] == c then 1 else 0) + CountChar(s[1..], c)
  }

  lemma {:induction false} CountCharAppend(a: string, b: string, c: char)
    ensures CountChar(a + b, c) == CountChar(a, c) + CountChar(b, c)
    decreases |a|
  {
    if a == [] {
      assert a + b == b;
    } else {
      assert (a + b)[1..] == a[1..] + b;
      CountCharAppend(a[1..], b, c);
    }
  }

  /** `s.split(sep)` gives one piece more than there are separators. */
  lemma {:induction false} SplitCount(s: string, sep: char)
    ensures |Split(s, sep)| == CountChar(s, sep) + 1
    decreases |s|
  {
    if sep in s {
      var k := IndexOf(s, sep);
      assert sep !in s[..k] by {
        forall m | 0 <= m < k ensures s[..k][m] != sep { assert s[..k][m] == s[m]; }
      }
      assert s == s[..k] + ([sep] + s[k + 1..]);
      CountCharAppend(s[..k], [sep] + s[k + 1..], sep);
      CountCharAppend([sep], s[k + 1..], sep);
      assert CountChar([sep], sep) == 1;
      SplitCount(s[k + 1..], sep);
    }
  }

  /** Splitting a join of separator-free pieces gives the pieces back. */
  lemma {:induction false} SplitJoin(parts: seq<string>, sep: char)
    requires |parts| >= 1
    requires forall i :: 0 <= i < |parts| ==> sep !in parts[i]
    ensures Split(Join(parts, sep), sep) == parts
    decreases |parts|
  {
    var s := Join(parts, sep);
    if |parts| == 1 {
      assert sep !in parts[0];
    } else {
      var rest := parts[1..];
      assert s == parts[0] + [sep] + Join(rest, sep);
      assert s[|parts[0]|] == sep;
      assert sep in s;
      var k := IndexOf(s, sep);
      forall m | 0 <= m < |parts[0]| ensures s[m] != sep {
        assert s[m] == parts[0][m];
      }
      assert k == |parts[0]|;
      assert s[..k] == parts[0];
      assert s[k + 1..] == Join(rest, sep);
      SplitJoin(rest, sep);
      assert Split(s, sep) == [parts[0]] + rest;
      assert [parts[0]] + rest == parts;
    }
  }

  // ---------------------------------------------------------------------------
  // Decimal digits
  // ---------------------------------------------------------------------------

  predicate IsDigit(c: char) { '0' <= c <= '9' }

  predicate AllDigits(s: string)
  {
    forall k :: 0 <= k < |s| ==> IsDigit(s[k])
  }

  function DigitValue(c: char): nat
    requires IsDigit(c)
  {
    c as int - '0' as int
  }

  function DigitChar(d: nat): (c: char)
    requires d < 10
    ensures IsDigit(c) && DigitValue(c) == d
  {
    ('0' as int + d) as char
  }

  function Pow10(n: nat): (p: nat)
    ensures p >= 1
  {
    if n == 0 then 1 else 10 * Pow10(n - 1)
  }

  /** The number a string of decimal digits denotes (Python's `int(s)`). */
  function ValueOf(s: string): nat
    requires AllDigits(s)
  {
    if |s| == 0 then 0 else 10 * ValueOf(s[..|s| - 1]) + DigitValue(s[|s| - 1])
  }

  /** `n` rendered in exactly `width` digits with leading zeros (the low
      `width` digits when `n` is wider), as `"%0*d" % (width, n)` does for
      numbers that fit. */
  function Pad(n: nat, width: nat): (r: string)
    ensures |r| == width && AllDigits(r)
  {
    if width == 0 then [] else Pad(n / 10, width - 1) + [DigitChar(n % 10)]
  }

  /** Reading back a zero-padded rendering gives the number, when it fits. */
  lemma {:induction false} ValueOfPad(n: nat, width: nat)
    requires n < Pow10(width)
    ensures ValueOf(Pad(n, width)) == n
  {
    if width > 0 {
      var p := Pad(n, width);
      assert p[..width - 1] == Pad(n / 10, width - 1);
      assert n / 10 < Pow10(width - 1);
      ValueOfPad(n / 10, width - 1);
    }
  }

  /** A digit string is the zero-padded rendering of its own value. */
  lemma {:induction false} PadValueOf(s: string)
    requires AllDigits(s)
    ensures Pad(ValueOf(s), |s|) == s
  {
    if |s| > 0 {
      var init := s[..|s| - 1];
      var d := DigitValue(s[|s| - 1]);
      var v := 10 * ValueOf(init) + d;
      assert v / 10 == ValueOf(init) && v % 10 == d;
      PadValueOf(init);
      assert DigitChar(d) == s[|s| - 1];
      assert s == init + [s[|s| - 1]];
    }
  }

  /** Python's `str(n)` for a non-negative integer: its digits, with no
      leading zero. */
  function NatToString(n: nat): (r: string)
    ensures |r| >= 1 && AllDigits(r)
    ensures ValueOf(r) == n
    ensures r[0] == '0' ==> r == "0"
  {
    if n < 10 then [DigitChar(n)]
    else
      var r := NatToString(n / 10) + [DigitChar(n % 10)];
      assert r[..|r| - 1] == NatToString(n / 10);
      r
  }

  /** The longest prefix of `s` made of digits. */
  function LeadingDigits(s: string): (r: string)
    ensures AllDigits(r) && |r| <= |s| && r == s[..|r|]
    ensures |r| < |s| ==> !IsDigit(s[|r|])
  {
    if |s| == 0 || !IsDigit(s[0]) then []
    else [s[0]] + LeadingDigits(s[1..])
  }

  /** The digits of a number are read back from a text that goes on with a
      non-digit. */
  lemma {:induction false} LeadingDigitsOf(d: string, rest: string)
    requires AllDigits(d)
    requires rest != [] ==> !IsDigit(rest[0])
    ensures LeadingDigits(d + rest) == d
    decreases |d|
  {
    var s := d + rest;
    if |d| > 0 {
      assert s[1..] == d[1..] + rest;
      LeadingDigitsOf(d[1..], rest);
      assert [d[0]] + d[1..] == d;
    } else {
      assert s == rest;
    }
  }
}

=== FILE: wrappers.dfy ===
/** Failure-carrying datatypes shared by every module of the model.
    The Python code signals failures by raising exceptions whose only payload
    is a message; here a failure is a value carrying that exact message.
 */
module Wrappers {

  /** Python's `Optional[T]`: `None` or a value. */
  datatype Option<+T> = None | Some(value: T)

  /** A computation that either produces a value or fails with an error. */
  datatype Result<+T, +E> = Success(value: T) | Failure(error: E)

  /** A check that either passes or fails with an error (a function that
      returns `None` or raises). */
  datatype Outcome<+E> = Pass | Fail(error: E)

  /** The state of a store after an attempted operation, together with what
      the operation returned. A failed attempt carries the state the store
      is left in, so "nothing changed" is a statement about `state`. */
  datatype Attempt<+S, +T> = Attempt(state: S, result: Result<T, string>)
}
